=== FILE: README.md ===
# Paragraph and article proximity analysis, modelled in Dafny

The analysed program reads a corpus of plain-text articles, cuts every article
into paragraphs, embeds every paragraph with a sentence-embedding model, and
reports three things: the matrix of proximities (inner products of the
embeddings) between all paragraphs, the five closest other paragraphs of every
paragraph, and the matrix of mean proximities between articles.

This project models the pure part of that pipeline, between reading the
files and writing the reports. There are two near-identical revisions of it
(`bert_concept_detection.py` and `csci_4000_a.py`) and one earlier segmenter
and matrix builder (`csci-4000-a.py`). The two later revisions run the same
logic, so one model serves both, and the table below cites either file.

Modules, in pipeline order:

- `Basics`: `Option`, `Result`, the run's `Failure` kinds, distinctness, sums and flattening.
- `PyStr`: the Python string operations the segmenter relies on, which are
  `str.split` (leftmost, non-overlapping matches), `str.join`, `str(n)` for
  naturals, slicing with negative and clamped bounds, and ASCII `isdigit`.
- `OrderedDict`: Python `dict` assignment semantics. Iteration follows first
  insertion, and assigning to a present key replaces the value in place.
- `Segmenter`: `get_article` after the file has been read, and the earlier
  `split_file_into_list`.
- `Corpus`: `process_files`, which builds the article table (name ↦ paragraph
  count) and the paragraph table (label ↦ text).
- `Similarity`: `get_paragraph_proximities`, which builds the P×P inner-product
  matrix and, for each paragraph, runs `heapq.nlargest(K, …)` over its
  neighbours. This is specified as a prefix of a stable descending sort.
- `Aggregation`: `get_article_proximities`, which gives block means over
  rectangles found with running offsets.
- `Legacy`: the earliest `main` / `calculate_proximities` index bookkeeping.
- `Pipeline`: the chain `main` runs, with the embeddings as a parameter.

## Model

| member | source | states |
|---|---|---|
| `PyStr.Split` | bert_concept_detection.py:95 | Python `str.split`. Joining the pieces with the separator gives back the text. No piece contains the separator. Every cut is at the first occurrence of the separator after the piece starts: a piece other than the last, followed by the separator, holds no earlier occurrence of it. There is exactly one piece iff the separator does not occur. |
| `PyStr.SplitOnCharIsMultiple` | bert_concept_detection.py:97-98 | A block splits into more than one line iff it contains a line break. |
| `PyStr.JoinSplitIsReplace` | bert_concept_detection.py:97-103 | Splitting on a character and joining with another is replacing every occurrence of the first by the second, so `' '.join(block.split('\n'))` turns line breaks into spaces. |
| `PyStr.Join` | bert_concept_detection.py:103 | `sep.join(parts)` starts with the first part, followed by the separator when there is a second part. |
| `PyStr.JoinFlatten` | bert_concept_detection.py:103 | The joined text is the first part, then every later part with the separator in front of it, in order. |
| `PyStr.JoinSnoc` | bert_concept_detection.py:103 | With two or more parts, the joined text is the join of all parts but the last, one separator, then the last part. |
| `PyStr.JoinLength` | bert_concept_detection.py:103 | The joined text of `n >= 1` parts is as long as the parts together plus `n - 1` separators. |
| `PyStr.IsDigit` | bert_concept_detection.py:101 | On ASCII text, `isdigit` holds exactly for the ten characters `0` to `9`. |
| `PyStr.Slice` | bert_concept_detection.py:69-72 | `s[start:stop]`, with both bounds resolved by the helper `ClampIndex`, is the plain slice when the bounds are in range. A negative stop counts from the end. A stop past the end takes the rest. The slice is empty when start is past the end, when a non-negative stop is at or before start, or when a negative stop resolves at or before start (as in `file[6:-4]` on a path of at most ten characters). |
| `PyStr.NatToString` | bert_concept_detection.py:72 | `str(index)` is a non-empty string of decimal digits that parses back to the index, with no leading zero: it starts with `0` only for index 0. |
| `PyStr.NatToStringInjective` | bert_concept_detection.py:72 | Different indices give different decimal strings. |
| `Segmenter.Paragraph` | bert_concept_detection.py:97-103 | One block fails with an index error exactly when it has several lines and an empty first line. Otherwise a block without a line break is kept as is. A multi-line block whose first line starts with a digit loses that line. Every other block keeps all its lines. Line breaks become single spaces. |
| `Segmenter.ParagraphsOf` | csci_4000_a.py:41-49 | One paragraph per block, in block order, agreeing with `Segmenter.Paragraph` block by block. The whole list fails iff some block is malformed. |
| `Segmenter.GetArticle` | bert_concept_detection.py:95-105 | The article has one paragraph per blank-line block, so it is never empty. It fails, with an index error, iff some block has several lines and an empty first line. |
| `Segmenter.SplitExamples` | bert_concept_detection.py:95 | `"a\n\n\nb"` splits into `"a"` and `"\nb"`. The empty text is one empty block. |
| `Segmenter.SegmentExample` | csci_4000_a.py:40-49 | `"1. Intro\nHello world\n\nGoodbye"` segments into `"Hello world"` and `"Goodbye"`. |
| `Segmenter.HeaderParagraphsOf` | csci-4000-a.py:22-29 | The earlier loop fails iff some block is malformed. It never yields more paragraphs than there are blocks. |
| `Segmenter.SplitFileIntoList` | csci-4000-a.py:14-30 | The earlier segmenter yields at most one paragraph per blank-line block. It fails iff some block is malformed. |
| `Segmenter.OldSegmenterKeepsHeaderParagraphs` | csci-4000-a.py:25-29 | Over any list of blocks, the earlier loop fails iff the later one does. Otherwise its output is the later output taken at the numbered blocks, in order. |
| `Segmenter.OldSegmenterMatchesNew` | csci-4000-a.py:20-29 | For any text, `split_file_into_list` fails iff `get_article` does. Otherwise it returns exactly `get_article`'s paragraphs of the multi-line, digit-headed blocks, in order. |
| `OrderedDict.Put` | bert_concept_detection.py:69 | `d[k] = v` keeps keys unique and stores `v` under `k`. A present key keeps its position. A new key is appended. |
| `OrderedDict.PutOther` | bert_concept_detection.py:72 | An assignment leaves every other key's value unchanged. |
| `OrderedDict.PutAllSize` | csci_4000_a.py:28-29 | A run of assignments into an empty dict leaves at most one entry per assignment. It leaves exactly one per assignment iff the assigned keys are pairwise distinct. |
| `OrderedDict.PutAllDistinct` | csci_4000_a.py:28-29 | With pairwise distinct keys, the dict lists exactly the assigned pairs, in assignment order. |
| `OrderedDict.PutAllLastWins` | bert_concept_detection.py:71-72 | A repeated key ends up holding the value of its last assignment. |
| `Corpus.ArticleName` | bert_concept_detection.py:69 | `file[6:-4]` drops six leading and four trailing characters, and is empty for a path of at most ten characters. |
| `Corpus.LabelPrefix` | bert_concept_detection.py:72 | `file[6:9]` is characters 6 to 8, or what is left of them in a shorter path, or empty. |
| `Corpus.Label` | bert_concept_detection.py:72 | A label is the prefix, then `", "`, then a digit string that parses back to the paragraph index. |
| `Corpus.LabelDigitsCanonical` | bert_concept_detection.py:72 | The index digits of a label have no leading zero: they start with `0` only for index 0, whose digits are exactly `"0"`. |
| `Corpus.GlobPathNames` | bert_concept_detection.py:69-72 | For a path `input/NAME.txt`, `file[6:-4]` is `NAME`, and `file[6:9]` is the first three characters of `NAME.txt`. |
| `Corpus.LabelInjective` | bert_concept_detection.py:72 | Two labels `prefix + ", " + str(index)` are equal only when both prefix and index are equal. |
| `Corpus.Labelled` | csci_4000_a.py:28-29 | An article's assignments label paragraph `x` as `prefix, x` and carry its text, in paragraph order. The labels of one article are pairwise distinct, and the assigned texts are the article's paragraphs in order. |
| `Corpus.BuildIndex` | csci_4000_a.py:25-29 | Both tables built by the two loops have unique keys. |
| `Corpus.BuildIndexIsPutAll` | csci_4000_a.py:25-29 | The paragraph table is the result of assigning every labelled paragraph, file by file and then by index. |
| `Corpus.SegmentAll` | bert_concept_detection.py:67-68 | Segmenting the files in order succeeds iff every file segments, and then agrees file by file with `get_article`. A failure is the segmenter's index error. |
| `Corpus.ProcessFiles` | bert_concept_detection.py:48-74 | `process_files` succeeds iff every file segments. A failure is the segmenter's index error. |
| `Corpus.LabelsDistinctIffPrefixesDistinct` | csci_4000_a.py:29 | Over non-empty articles, all labels are distinct iff no two files share the prefix `file[6:9]`. |
| `Corpus.ParagraphCountIffDistinctPrefixes` | bert_concept_detection.py:69-72 | The paragraph table has at most as many entries as there are paragraphs. It has exactly that many iff no two files share the prefix `file[6:9]`. |
| `Corpus.ParagraphOrder` | bert_concept_detection.py:67-72 | With distinct prefixes, the paragraph table lists every paragraph under its label, file by file, then by ascending index. Its values are the concatenated articles. |
| `Corpus.ArticleTable` | bert_concept_detection.py:67-69 | The article table has one entry per file iff the article names are distinct. It then lists the names with their paragraph counts, in file order. |
| `Corpus.PrefixCollision` | csci_4000_a.py:29 | Any two glob paths whose file names share their first three characters (such as `aristotle-logic` and `aristotle-ethics`) produce the same label for every paragraph index. |
| `Corpus.SegmentedArticlesNonEmpty` | bert_concept_detection.py:95-103 | Every segmented article has at least one paragraph. |
| `Similarity.InnerSymmetric` | bert_concept_detection.py:136 | `np.inner(u, v) == np.inner(v, u)`. |
| `Similarity.Inner` | bert_concept_detection.py:136 | `np.inner(u, u)` is never negative. |
| `Similarity.ProximityMatrixSymmetric` | csci_4000_a.py:60-67 | A matrix of pairwise inner products is symmetric. Its diagonal holds each embedding's non-negative self inner product. |
| `Similarity.Candidates` | bert_concept_detection.py:134-138 | `target_proximities` lists every column but `i` once, in ascending column order, with that column's label and matrix entry. |
| `Similarity.CandidatesComplete` | csci_4000_a.py:65-69 | Every other paragraph is among the candidates. |
| `Similarity.Insert` | bert_concept_detection.py:140-141 | Insertion adds exactly one element and loses none. |
| `Similarity.InsertRanked` | bert_concept_detection.py:140-141 | Inserting into a ranked list keeps it ranked (score descending, then column ascending). |
| `Similarity.SortDesc` | bert_concept_detection.py:140-141 | The stable descending sort by score is a permutation. With distinct columns, it is ranked by score and ties go to the lower column, which is the input order on candidates listed by ascending column. |
| `Similarity.RankedPrefixIsTop` | bert_concept_detection.py:140-141 | Whatever a prefix of a ranked list leaves out ranks after everything it keeps. |
| `Similarity.NLargest` | csci_4000_a.py:70-71 | `heapq.nlargest(k, …)` returns `min(k, n)` of the candidates, ranked. Every candidate left out ranks after every candidate kept. |
| `Similarity.Closest` | bert_concept_detection.py:137-141 | A neighbour list has `min(K, P-1)` entries, in non-increasing score order, with ties in ascending column order. |
| `Similarity.ClosestEntries` | bert_concept_detection.py:137-140 | Every neighbour is another paragraph, reported with its label and matrix entry. With unique labels, no list names its own paragraph. |
| `Similarity.ClosestIsTop` | csci_4000_a.py:68-71 | A paragraph missing from a neighbour list scores no higher than any paragraph in it. |
| `Similarity.ProximityRow` | csci_4000_a.py:64-71 | One outer iteration fills row `i` with the inner products of embedding `i`, and yields paragraph `i`'s neighbour list. |
| `Similarity.ParagraphProximities` | bert_concept_detection.py:129-143 | The matrix is P×P with `M[i][j] = inner(e_i, e_j)`. The neighbour list of `i` is the top-K selection of row `i` without `i`. |
| `Aggregation.OffsetStep` | bert_concept_detection.py:169-170 | Advancing the running offset by an article's length gives the next article's first paragraph index. |
| `Aggregation.OffsetBounds` | bert_concept_detection.py:163-170 | Article blocks follow one another without overlap and end inside the paragraph range. |
| `Aggregation.ArticleBlockInside` | csci_4000_a.py:84-85 | When the article lengths partition the paragraphs, each article's slice lies inside the matrix, so no slice is clamped. |
| `Aggregation.ArticleProximities` | bert_concept_detection.py:161-172 | Entry `(i, j)` is the mean of the paragraph matrix over rows `[off_i, off_i + len_i)` × columns `[off_j, off_j + len_j)`, where `off_i` is the sum of earlier lengths. |
| `Aggregation.BlockSumByColumns` | bert_concept_detection.py:167-168 | A rectangle's sum is the same whether it is added up row by row or column by column. |
| `Aggregation.BlockSumTranspose` | csci_4000_a.py:84-85 | In a symmetric matrix, a rectangle and its mirror image have equal sums. |
| `Aggregation.ArticleMatrixSymmetric` | csci_4000_a.py:80-87 | A symmetric paragraph matrix gives a symmetric article matrix. |
| `Aggregation.SingleParagraphSelf` | bert_concept_detection.py:167-168 | A one-paragraph article's self entry equals its paragraph's diagonal entry. |
| `Aggregation.BlockMean` | bert_concept_detection.py:167-168 | `np.average` over a rectangle times its cell count is the rectangle's sum. |
| `Aggregation.BlockMeanBetween` | bert_concept_detection.py:167-168 | When every entry of the rectangle lies in `[lo, hi]`, so does its mean. |
| `Aggregation.BlockMeanConstant` | bert_concept_detection.py:167-168 | A rectangle whose entries are all equal averages to that value. |
| `Aggregation.AllSingletons` | csci_4000_a.py:80-87 | When every article has one paragraph, the article matrix is the paragraph matrix. |
| `Legacy.CountParagraphs` | csci-4000-a.py:74-79 | `num_paragraphs` is the total number of paragraphs, i.e. the length of the concatenated articles. |
| `Legacy.MaxLenBound` | csci-4000-a.py:34 | The longest article is no longer than `num_paragraphs`. |
| `Legacy.CalculateProximities` | csci-4000-a.py:33-44 | As written, the four nested loops store once per ordered pair of paragraphs, `num_paragraphs` squared stores in all. |
| `Legacy.CorrectedProximities` | csci-4000-a.py:33-44 | The corrected indexing makes the same `num_paragraphs` squared stores. |
| `Legacy.FinalConcat` | csci-4000-a.py:42 | A store to a cell replaces whatever earlier stores put there. |
| `Legacy.WrittenCells` | csci-4000-a.py:33-44 | As written, a cell is ever written iff its row and column are both below the longest article's length. That square lies inside the `num_paragraphs` square. |
| `Legacy.LegacyLosesCells` | csci-4000-a.py:36-42 | Take two one-paragraph articles. As written, cell `(0, 1)` of the 2×2 matrix is never written, and cell `(0, 0)` holds the second paragraph's score against itself. The corrected indexing gives the intended values. |
| `Legacy.CorrectedCells` | csci-4000-a.py:33-44 | Indexed by corpus position, every cell `(r, c)` of the `num_paragraphs` square holds the score of corpus paragraphs `r` and `c`. Nothing outside it is written. |
| `Pipeline.Run` | bert_concept_detection.py:229-243 | A run with no files fails with `NoInputFound`. Otherwise it succeeds iff every file segments, names and prefixes are unique, and there is one uniform embedding per paragraph. A segmentation failure is the index error. A success reports the tables, both symmetric matrices and all neighbour lists. |
| `Pipeline.Analyse` | csci_4000_a.py:129-135 | On a well-formed corpus, the paragraph texts (in table order) are the articles' paragraphs in reading order. Article counts are the articles' lengths. Matrix, neighbour lists and article means are as specified above. |
| `Pipeline.NeighbourListsWellFormed` | bert_concept_detection.py:45 | With `NUM_CLOSEST_PARAGRAPHS = 5`, each list has `min(5, P-1)` entries. Each entry names another label of the table, with its proximity. |

## Left out

- Reading files, `glob` discovery, logging, `print` and `exit()` are I/O. `main`'s early exit on an empty file list is `Pipeline.Run`'s `NoInputFound`.
- `write_csv` and `write_txt` (pandas CSV export, `textwrap` formatting) are output formatting only.
- The embedding model (`hub.load`, `embed`) and `compare_paragraphs` call a foreign neural network. The embeddings are a parameter of `Pipeline.Run` and of `Similarity.ParagraphProximities`. The pairwise score of the earliest revision is a function parameter of the `Legacy` module.
- `compare_paragraphs.py` is a hard-coded demonstration script.
- Floating-point rounding and numpy's NaN: scores and means are exact reals. A cell that `np.empty` allocates and nothing writes is `None`, not garbage.
- `Similarity.SortDesc` and `Similarity.NLargest` break score ties by the lower column, not by the earlier position in their input as Python's stable sort does. The two agree on candidates listed by ascending column, which is how `Similarity.Candidates` builds every list they receive.
- `PyStr.IsDigit` accepts only the ASCII digits `0`–`9`. Python's `str.isdigit` also accepts other Unicode digit characters.
- Strings are sequences of characters, with no text decoding.
- `Aggregation.ArticleProximities` requires every article to be non-empty and the lengths to add up to the matrix size. Without that, numpy would clamp the slices or average an empty slice (NaN), and that case is not modelled.
- `Pipeline.Run` stops with `DuplicateIdentifier` when two files share an article name or a label prefix, and with `DimensionMismatch` when the embeddings do not fit. The program itself performs neither check: it silently overwrites table entries and lets numpy clamp or fail. The consequences of a collision are proved separately (`Corpus.ParagraphCountIffDistinctPrefixes`, `Corpus.PrefixCollision`). A failure of the embedding model itself is outside the model.
- The program raises `IndexError` at `first_line[0]` on a multi-line block with an empty first line; the model returns `HeaderIndexError`.
- `Pipeline.Analyse` requires distinct article names and distinct label prefixes `file[6:9]`, so it does not describe a corpus such as `aristotle-logic` and `aristotle-ethics`, which the program processes silently. With colliding labels the paragraph table has fewer entries than there are paragraphs, so the article lengths no longer add up to the size of the paragraph matrix, and the block means of `get_article_proximities` are only modelled for lengths that partition it. What such a corpus does to the tables is stated by `Corpus.ParagraphCountIffDistinctPrefixes`, `Corpus.ArticleTable` and `Corpus.PrefixCollision`.
- `Similarity.Neighbour` carries the candidate's column next to the `(label, proximity)` pair the program stores. The column fixes the tie order that the stable sort behind `heapq.nlargest` produces.
- The `print(target_paragraph)` inside `calculate_proximities` is not modelled.

## Findings

| source | as written | input that shows it | evidently intended | confidence | as-written member | corrected member |
|---|---|---|---|---|---|---|
| csci-4000-a.py:42 | `paragraph_proximities[j, m] = proximity`, where `j` and `m` are positions inside their own articles | the articles `[["a"], ["b"]]`: the 2×2 matrix never gets cell `(0, 1)`, and cell `(0, 0)` is overwritten by the score of `"b"` against itself | index by position in the corpus (article offset plus position), as the later revisions do with their flat paragraph table | high; not executed | `Legacy.LegacyLosesCells` | `Legacy.CorrectedCells` |

=== FILE: aggregation.dfy ===
/** The article matrix of `get_article_proximities`. The paragraphs of the
    corpus are numbered article after article, so the paragraphs of article `i`
    are the rows `[Offset(i), Offset(i) + len_i)` of the paragraph matrix; entry
    `(i, j)` of the article matrix is the mean of the paragraph matrix over the
    rectangle those two ranges span. The mean is a sum divided by a count over
    exact reals. */
module Aggregation {
  import opened Basics
  import opened Similarity

  /** The first paragraph index of article `i`: the lengths of the articles
      before it, added up. */
  function Offset(lens: seq<nat>, i: nat): nat
    requires i <= |lens|
  {
    Sum(lens[..i])
  }

  lemma OffsetStep(lens: seq<nat>, i: nat)
    requires i < |lens|
    ensures Offset(lens, i + 1) == Offset(lens, i) + lens[i]
  {
    assert lens[..i + 1][..i] == lens[..i];
  }

  lemma {:induction false} OffsetMonotone(lens: seq<nat>, i: nat, j: nat)
    requires i <= j <= |lens|
    ensures Offset(lens, i) <= Offset(lens, j)
    decreases j - i
  {
    if i < j {
      OffsetStep(lens, i);
      OffsetMonotone(lens, i + 1, j);
    }
  }

  /** The blocks of the articles lie inside the paragraph matrix, one after the
      other: article `i` ends no later than article `j` starts when `i < j`. */
  lemma OffsetBounds(lens: seq<nat>, i: nat, j: nat)
    requires i < j <= |lens|
    ensures Offset(lens, i) + lens[i] <= Offset(lens, j)
    ensures Offset(lens, j) <= Sum(lens)
  {
    OffsetStep(lens, i);
    OffsetMonotone(lens, i + 1, j);
    OffsetMonotone(lens, j, |lens|);
    assert lens[..|lens|] == lens;
  }

  /** Entries `[c, c + w)` of row `i`, added up. */
  function RowSum(m: Matrix, i: nat, c: nat, w: nat): real
    requires i < |m| && c + w <= |m[i]|
    decreases w
  {
    if w == 0 then 0.0 else RowSum(m, i, c, w - 1) + m[i][c + w - 1]
  }

  /** Entries `[r, r + h)` of column `j`, added up. */
  function ColSum(m: Matrix, j: nat, r: nat, h: nat): real
    requires IsSquare(m, |m|) && j < |m| && r + h <= |m|
    decreases h
  {
    if h == 0 then 0.0 else ColSum(m, j, r, h - 1) + m[r + h - 1][j]
  }

  /** The rectangle of rows `[r, r + h)` and columns `[c, c + w)`, added up
      row by row. */
  function BlockSum(m: Matrix, r: nat, h: nat, c: nat, w: nat): real
    requires IsSquare(m, |m|) && r + h <= |m| && c + w <= |m|
    decreases h
  {
    if h == 0 then 0.0 else BlockSum(m, r, h - 1, c, w) + RowSum(m, r + h - 1, c, w)
  }

  /** The same rectangle added up column by column. */
  function ColBlockSum(m: Matrix, r: nat, h: nat, c: nat, w: nat): real
    requires IsSquare(m, |m|) && r + h <= |m| && c + w <= |m|
    decreases w
  {
    if w == 0 then 0.0 else ColBlockSum(m, r, h, c, w - 1) + ColSum(m, c + w - 1, r, h)
  }

  /** `np.average` of the rectangle: the value that, taken once for each of
      its `h * w` cells, gives the rectangle's total. */
  function BlockMean(m: Matrix, r: nat, h: nat, c: nat, w: nat): (mean: real)
    requires IsSquare(m, |m|) && r + h <= |m| && c + w <= |m|
    requires h > 0 && w > 0
    ensures mean * ((h * w) as real) == BlockSum(m, r, h, c, w)
  {
    CellCountPositive(h, w);
    BlockSum(m, r, h, c, w) / ((h * w) as real)
  }

  lemma CellCountPositive(h: nat, w: nat)
    requires h > 0 && w > 0
    ensures (h * w) as real >= 1.0
  {
    assert h * w == (h - 1) * w + w;
  }

  /** The lengths describe a partition of the paragraphs: every article has at
      least one paragraph, and together they have as many as the matrix has rows. */
  predicate Partition(lens: seq<nat>, m: Matrix) {
    IsSquare(m, |m|) && Sum(lens) == |m| && forall i :: 0 <= i < |lens| ==> lens[i] > 0
  }

  lemma ArticleBlockInside(lens: seq<nat>, m: Matrix, i: nat)
    requires Partition(lens, m) && i < |lens|
    ensures Offset(lens, i) + lens[i] <= |m|
  {
    OffsetBounds(lens, i, |lens|);
  }

  /** Entry `(i, j)` of the article matrix: the mean proximity between the
      paragraphs of article `i` and those of article `j`. */
  function ArticleEntry(lens: seq<nat>, m: Matrix, i: nat, j: nat): real
    requires Partition(lens, m) && i < |lens| && j < |lens|
  {
    ArticleBlockInside(lens, m, i);
    ArticleBlockInside(lens, m, j);
    BlockMean(m, Offset(lens, i), lens[i], Offset(lens, j), lens[j])
  }

  /** `get_article_proximities`: the article matrix, computed with the running
      offsets `start_row` and `start_col`. */
  method ArticleProximities(lens: seq<nat>, m: Matrix) returns (a: Matrix)
    requires Partition(lens, m)
    ensures IsSquare(a, |lens|)
    ensures forall i, j :: 0 <= i < |lens| && 0 <= j < |lens| ==> a[i][j] == ArticleEntry(lens, m, i, j)
  {
    a := [];
    var startRow := 0;
    var i := 0;
    while i < |lens|
      invariant 0 <= i <= |lens|
      invariant startRow == Offset(lens, i)
      invariant ArticleRowsDone(lens, m, a, i)
    {
      ArticleBlockInside(lens, m, i);
      var row: seq<real> := [];
      var startCol := 0;
      var j := 0;
      while j < |lens|
        invariant 0 <= j <= |lens|
        invariant startCol == Offset(lens, j)
        invariant |row| == j
        invariant forall b :: 0 <= b < j ==> row[b] == ArticleEntry(lens, m, i, b)
      {
        ArticleBlockInside(lens, m, j);
        row := row + [BlockMean(m, startRow, lens[i], startCol, lens[j])];
        OffsetStep(lens, j);
        startCol := startCol + lens[j];
        j := j + 1;
      }
      ArticleRowsExtend(lens, m, a, i, row);
      a := a + [row];
      OffsetStep(lens, i);
      startRow := startRow + lens[i];
      i := i + 1;
    }
  }

  /** The outer loop's invariant: rows `[0, i)` of the article matrix are final. */
  predicate ArticleRowsDone(lens: seq<nat>, m: Matrix, a: Matrix, i: nat)
    requires Partition(lens, m) && i <= |lens|
  {
    |a| == i &&
    (forall r :: 0 <= r < i ==> |a[r]| == |lens|) &&
    (forall r, c :: 0 <= r < i && 0 <= c < |lens| ==> a[r][c] == ArticleEntry(lens, m, r, c))
  }

  lemma ArticleRowsExtend(lens: seq<nat>, m: Matrix, a: Matrix, i: nat, row: seq<real>)
    requires Partition(lens, m) && i < |lens| && ArticleRowsDone(lens, m, a, i)
    requires |row| == |lens| && forall c :: 0 <= c < |lens| ==> row[c] == ArticleEntry(lens, m, i, c)
    ensures ArticleRowsDone(lens, m, a + [row], i + 1)
  {
    var a' := a + [row];
    forall r, c | 0 <= r <= i && 0 <= c < |lens|
      ensures a'[r][c] == ArticleEntry(lens, m, r, c)
    {
      if r < i {
        assert a'[r] == a[r];
      }
    }
  }

  // ----- adding up a rectangle in either order -----

  lemma {:induction false} ColBlockSumNoRows(m: Matrix, r: nat, c: nat, w: nat)
    requires IsSquare(m, |m|) && r <= |m| && c + w <= |m|
    ensures ColBlockSum(m, r, 0, c, w) == 0.0
    decreases w
  {
    if w > 0 {
      ColBlockSumNoRows(m, r, c, w - 1);
    }
  }

  /** Adding a row to the rectangle adds that row's sum to the column-wise total. */
  lemma {:induction false} ColBlockSumAddRow(m: Matrix, r: nat, h: nat, c: nat, w: nat)
    requires IsSquare(m, |m|) && r + h < |m| && c + w <= |m|
    ensures ColBlockSum(m, r, h + 1, c, w) == ColBlockSum(m, r, h, c, w) + RowSum(m, r + h, c, w)
    decreases w
  {
    if w > 0 {
      ColBlockSumAddRow(m, r, h, c, w - 1);
    }
  }

  /** Summing a rectangle row by row or column by column gives the same total. */
  lemma {:induction false} BlockSumByColumns(m: Matrix, r: nat, h: nat, c: nat, w: nat)
    requires IsSquare(m, |m|) && r + h <= |m| && c + w <= |m|
    ensures BlockSum(m, r, h, c, w) == ColBlockSum(m, r, h, c, w)
    decreases h
  {
    if h == 0 {
      ColBlockSumNoRows(m, r, c, w);
    } else {
      BlockSumByColumns(m, r, h - 1, c, w);
      ColBlockSumAddRow(m, r, h - 1, c, w);
    }
  }

  lemma {:induction false} ColSumSymmetric(m: Matrix, j: nat, r: nat, h: nat)
    requires IsSquare(m, |m|) && Symmetric(m) && j < |m| && r + h <= |m|
    ensures ColSum(m, j, r, h) == RowSum(m, j, r, h)
    decreases h
  {
    if h > 0 {
      ColSumSymmetric(m, j, r, h - 1);
    }
  }

  lemma {:induction false} ColBlockSumSymmetric(m: Matrix, r: nat, h: nat, c: nat, w: nat)
    requires IsSquare(m, |m|) && Symmetric(m) && r + h <= |m| && c + w <= |m|
    ensures ColBlockSum(m, r, h, c, w) == BlockSum(m, c, w, r, h)
    decreases w
  {
    if w > 0 {
      ColBlockSumSymmetric(m, r, h, c, w - 1);
      ColSumSymmetric(m, c + w - 1, r, h);
    }
  }

  /** In a symmetric matrix a rectangle and its mirror image have the same sum. */
  lemma BlockSumTranspose(m: Matrix, r: nat, h: nat, c: nat, w: nat)
    requires IsSquare(m, |m|) && Symmetric(m) && r + h <= |m| && c + w <= |m|
    ensures BlockSum(m, r, h, c, w) == BlockSum(m, c, w, r, h)
  {
    BlockSumByColumns(m, r, h, c, w);
    ColBlockSumSymmetric(m, r, h, c, w);
  }

  // ----- properties of the article matrix -----

  /** A symmetric paragraph matrix gives a symmetric article matrix. */
  lemma ArticleMatrixSymmetric(lens: seq<nat>, m: Matrix, i: nat, j: nat)
    requires Partition(lens, m) && Symmetric(m) && i < |lens| && j < |lens|
    ensures ArticleEntry(lens, m, i, j) == ArticleEntry(lens, m, j, i)
  {
    ArticleBlockInside(lens, m, i);
    ArticleBlockInside(lens, m, j);
    BlockSumTranspose(m, Offset(lens, i), lens[i], Offset(lens, j), lens[j]);
    assert lens[i] * lens[j] == lens[j] * lens[i];
  }

  /** The self entry of a one-paragraph article is that paragraph's diagonal entry. */
  lemma SingleParagraphSelf(lens: seq<nat>, m: Matrix, i: nat)
    requires Partition(lens, m) && i < |lens| && lens[i] == 1
    ensures Offset(lens, i) < |m|
    ensures ArticleEntry(lens, m, i, i) == m[Offset(lens, i)][Offset(lens, i)]
  {
    ArticleBlockInside(lens, m, i);
    var o := Offset(lens, i);
    assert BlockSum(m, o, 1, o, 1) == RowSum(m, o, o, 1);
  }

  lemma {:induction false} RowSumConstant(m: Matrix, i: nat, c: nat, w: nat, x: real)
    requires i < |m| && c + w <= |m[i]|
    requires forall b :: c <= b < c + w ==> m[i][b] == x
    ensures RowSum(m, i, c, w) == (w as real) * x
    decreases w
  {
    if w > 0 {
      RowSumConstant(m, i, c, w - 1, x);
    }
  }

  lemma {:induction false} BlockSumConstant(m: Matrix, r: nat, h: nat, c: nat, w: nat, x: real)
    requires IsSquare(m, |m|) && r + h <= |m| && c + w <= |m|
    requires forall a, b :: r <= a < r + h && c <= b < c + w ==> m[a][b] == x
    ensures BlockSum(m, r, h, c, w) == (h as real) * ((w as real) * x)
    decreases h
  {
    if h > 0 {
      BlockSumConstant(m, r, h - 1, c, w, x);
      RowSumConstant(m, r + h - 1, c, w, x);
      var rowTotal := (w as real) * x;
      assert ((h - 1) as real) * rowTotal + rowTotal == (h as real) * rowTotal;
    }
  }

  /** A rectangle whose entries are all equal averages to that value. */
  lemma BlockMeanConstant(m: Matrix, r: nat, h: nat, c: nat, w: nat, x: real)
    requires IsSquare(m, |m|) && r + h <= |m| && c + w <= |m| && h > 0 && w > 0
    requires forall a, b :: r <= a < r + h && c <= b < c + w ==> m[a][b] == x
    ensures BlockMean(m, r, h, c, w) == x
  {
    BlockSumConstant(m, r, h, c, w, x);
    MeanOfEqualEntries(BlockSum(m, r, h, c, w), h, w, x);
  }

  /** A rectangle whose entries all lie between `lo` and `hi` averages to a
      value between them. */
  lemma BlockMeanBetween(m: Matrix, r: nat, h: nat, c: nat, w: nat, lo: real, hi: real)
    requires IsSquare(m, |m|) && r + h <= |m| && c + w <= |m| && h > 0 && w > 0
    requires forall a, b :: r <= a < r + h && c <= b < c + w ==> lo <= m[a][b] <= hi
    ensures lo <= BlockMean(m, r, h, c, w) <= hi
  {
    BlockSumBetween(m, r, h, c, w, lo, hi);
    MeanWithin(BlockSum(m, r, h, c, w), h, w, BlockMean(m, r, h, c, w), lo, hi);
  }

  /** A total between `h * w` copies of `lo` and of `hi`, shared out over
      `h * w` cells, gives each a value between `lo` and `hi`. */
  lemma MeanWithin(total: real, h: nat, w: nat, mean: real, lo: real, hi: real)
    requires h > 0 && w > 0 && mean * ((h * w) as real) == total
    requires (h as real) * ((w as real) * lo) <= total <= (h as real) * ((w as real) * hi)
    ensures lo <= mean <= hi
  {
    var hr, wr := h as real, w as real;
    CastProduct(h, w);
    CellCountPositive(h, w);
    var n := hr * wr;
    assert hr * (wr * lo) == n * lo && hr * (wr * hi) == n * hi;
    assert (mean - lo) * n == total - n * lo;
    assert (hi - mean) * n == n * hi - total;
    PositiveFactor(mean - lo, n);
    PositiveFactor(hi - mean, n);
  }

  lemma PositiveFactor(a: real, n: real)
    requires n > 0.0 && a * n >= 0.0
    ensures a >= 0.0
  {
  }

  lemma {:induction false} RowSumBetween(m: Matrix, i: nat, c: nat, w: nat, lo: real, hi: real)
    requires i < |m| && c + w <= |m[i]|
    requires forall b :: c <= b < c + w ==> lo <= m[i][b] <= hi
    ensures (w as real) * lo <= RowSum(m, i, c, w) <= (w as real) * hi
    decreases w
  {
    if w > 0 {
      RowSumBetween(m, i, c, w - 1, lo, hi);
      ScaleStep(w, lo);
      ScaleStep(w, hi);
    }
  }

  lemma {:induction false} BlockSumBetween(m: Matrix, r: nat, h: nat, c: nat, w: nat, lo: real, hi: real)
    requires IsSquare(m, |m|) && r + h <= |m| && c + w <= |m|
    requires forall a, b :: r <= a < r + h && c <= b < c + w ==> lo <= m[a][b] <= hi
    ensures (h as real) * ((w as real) * lo) <= BlockSum(m, r, h, c, w) <= (h as real) * ((w as real) * hi)
    decreases h
  {
    if h > 0 {
      var rowLo, rowHi := (w as real) * lo, (w as real) * hi;
      var before, row := BlockSum(m, r, h - 1, c, w), RowSum(m, r + h - 1, c, w);
      BlockSumBetween(m, r, h - 1, c, w, lo, hi);
      RowSumBetween(m, r + h - 1, c, w, lo, hi);
      assert BlockSum(m, r, h, c, w) == before + row;
      ScaleStep(h, rowLo);
      ScaleStep(h, rowHi);
      assert ((h - 1) as real) * rowLo <= before <= ((h - 1) as real) * rowHi;
      assert rowLo <= row <= rowHi;
    }
  }

  /** `k` copies of `x` are `k - 1` copies and one more. */
  lemma ScaleStep(k: nat, x: real)
    requires k > 0
    ensures (k as real) * x == ((k - 1) as real) * x + x
  {
  }

  /** `h` rows of `w` copies of `x` average to `x`. */
  lemma MeanOfEqualEntries(total: real, h: nat, w: nat, x: real)
    requires h > 0 && w > 0 && total == (h as real) * ((w as real) * x)
    ensures total / ((h * w) as real) == x
  {
    var hr, wr := h as real, w as real;
    CastProduct(h, w);
    var n := hr * wr;
    assert hr >= 1.0 && wr >= 1.0;
    assert n >= wr by {
      assert n - wr == (hr - 1.0) * wr;
    }
    assert total == n * x;
    DivideProduct(n, x);
  }

  lemma {:induction false} CastProduct(h: nat, w: nat)
    ensures (h * w) as real == (h as real) * (w as real)
    decreases h
  {
    if h > 0 {
      CastProduct(h - 1, w);
      assert h * w == (h - 1) * w + w;
    }
  }

  lemma DivideProduct(n: real, x: real)
    requires n > 0.0
    ensures (n * x) / n == x
  {
    var y := (n * x) / n;
    assert y * n == n * x;
    assert (y - x) * n == 0.0;
  }

  lemma {:induction false} OffsetsOfSingletons(lens: seq<nat>, i: nat)
    requires i <= |lens| && forall k :: 0 <= k < |lens| ==> lens[k] == 1
    ensures Offset(lens, i) == i
    decreases i
  {
    if i > 0 {
      OffsetsOfSingletons(lens, i - 1);
      OffsetStep(lens, i - 1);
    }
  }

  /** When every article is a single paragraph the article matrix is the
      paragraph matrix. */
  lemma AllSingletons(lens: seq<nat>, m: Matrix, i: nat, j: nat)
    requires Partition(lens, m) && i < |lens| && j < |lens|
    requires forall k :: 0 <= k < |lens| ==> lens[k] == 1
    ensures i < |m| && j < |m|
    ensures ArticleEntry(lens, m, i, j) == m[i][j]
  {
    OffsetsOfSingletons(lens, i);
    OffsetsOfSingletons(lens, j);
    ArticleBlockInside(lens, m, i);
    ArticleBlockInside(lens, m, j);
    assert BlockSum(m, i, 1, j, 1) == RowSum(m, i, j, 1);
  }
}

=== FILE: basics.dfy ===
/** Small shared vocabulary: optional values, results with an error, distinctness,
    sums and flattening of sequences. */
module Basics {

  datatype Option<T> = None | Some(value: T)

  datatype Result<T, E> = Ok(value: T) | Err(error: E)

  /** The run-level failures of the analysis. `HeaderIndexError` is the `IndexError`
      Python raises at `first_line[0]`; the other three are the run-level stops
      `Pipeline.Run` adds. */
  datatype Failure =
    | HeaderIndexError
    | NoInputFound
    | DuplicateIdentifier
    | DimensionMismatch

  /** Results computed one after another, where the first failure aborts the
      run: all the values in order, or the error of the first failure. */
  function CollectOk<T, E(==)>(rs: seq<Result<T, E>>): (r: Result<seq<T>, E>)
    ensures r.Ok? <==> forall i :: 0 <= i < |rs| ==> rs[i].Ok?
    ensures r.Ok? ==> |r.value| == |rs| && forall i :: 0 <= i < |rs| ==> rs[i] == Ok(r.value[i])
    ensures r.Err? ==> exists i :: 0 <= i < |rs| && rs[i].Err? && rs[i].error == r.error && forall j :: 0 <= j < i ==> rs[j].Ok?
    decreases |rs|
  {
    if rs == [] then Ok([])
    else
      match rs[0]
      case Err(e) => Err(e)
      case Ok(v) =>
        var rest := CollectOk(rs[1..]);
        assert forall i :: 1 <= i < |rs| ==> rs[i] == rs[1..][i - 1];
        match rest
        case Err(e) =>
          var i :| 0 <= i < |rs[1..]| && rs[1..][i].Err? && rs[1..][i].error == e && forall j :: 0 <= j < i ==> rs[1..][j].Ok?;
          assert rs[i + 1] == rs[1..][i];
          Err(e)
        case Ok(vs) =>
          var r := [v] + vs;
          assert forall i :: 1 <= i < |rs| ==> r[i] == vs[i - 1];
          Ok(r)
  }

  predicate Distinct<T(==)>(s: seq<T>) {
    forall i, j :: 0 <= i < j < |s| ==> s[i] != s[j]
  }

  lemma DistinctSnoc<T>(s: seq<T>, x: T)
    ensures Distinct(s + [x]) <==> Distinct(s) && x !in s
  {
    if x in s {
      var i :| 0 <= i < |s| && s[i] == x;
      assert (s + [x])[i] == (s + [x])[|s|];
    }
    if Distinct(s + [x]) {
      assert forall i, j :: 0 <= i < j < |s| ==> s[i] == (s + [x])[i] && s[j] == (s + [x])[j];
    }
  }

  lemma DistinctConcat<T>(a: seq<T>, b: seq<T>)
    ensures Distinct(a + b) <==> Distinct(a) && Distinct(b) && forall x :: x in a ==> x !in b
  {
    var ab := a + b;
    if Distinct(ab) {
      assert forall i, j :: 0 <= i < j < |b| ==> b[i] == ab[|a| + i] && b[j] == ab[|a| + j];
      assert forall i, j :: 0 <= i < j < |a| ==> a[i] == ab[i] && a[j] == ab[j];
      forall x | x in a
        ensures x !in b
      {
        var i :| 0 <= i < |a| && a[i] == x;
        forall j | 0 <= j < |b|
          ensures b[j] != x
        {
          assert ab[i] == a[i] && ab[|a| + j] == b[j];
        }
      }
    }
    if Distinct(a) && Distinct(b) && (forall x :: x in a ==> x !in b) {
      forall i, j | 0 <= i < j < |ab|
        ensures ab[i] != ab[j]
      {
        if j < |a| {
          assert ab[i] == a[i] && ab[j] == a[j];
        } else if i >= |a| {
          assert ab[i] == b[i - |a|] && ab[j] == b[j - |a|];
        } else {
          assert ab[i] == a[i] && ab[j] == b[j - |a|];
          assert a[i] in a;
        }
      }
    }
  }

  function Min(a: int, b: int): int {
    if a <= b then a else b
  }

  function Max(a: int, b: int): int {
    if a <= b then b else a
  }

  function Sum(s: seq<nat>): nat
    decreases |s|
  {
    if s == [] then 0 else Sum(s[..|s| - 1]) + s[|s| - 1]
  }

  /** Concatenation of a sequence of sequences, in order. */
  function Flatten<T>(ss: seq<seq<T>>): seq<T>
    decreases |ss|
  {
    if ss == [] then [] else Flatten(ss[..|ss| - 1]) + ss[|ss| - 1]
  }

  function Lengths<T>(ss: seq<seq<T>>): (r: seq<nat>)
    ensures |r| == |ss|
    ensures forall i :: 0 <= i < |ss| ==> r[i] == |ss[i]|
  {
    seq(|ss|, i requires 0 <= i < |ss| => |ss[i]|)
  }

  lemma {:induction false} FlattenLength<T>(ss: seq<seq<T>>)
    ensures |Flatten(ss)| == Sum(Lengths(ss))
    decreases |ss|
  {
    if ss != [] {
      FlattenLength(ss[..|ss| - 1]);
      assert Lengths(ss)[..|ss| - 1] == Lengths(ss[..|ss| - 1]);
    }
  }

  /** Flattening reads the first piece first. */
  lemma {:induction false} FlattenCons<T>(x: seq<T>, ys: seq<seq<T>>)
    ensures Flatten([x] + ys) == x + Flatten(ys)
    decreases |ys|
  {
    if ys != [] {
      var n := |ys| - 1;
      FlattenCons(x, ys[..n]);
      assert ([x] + ys)[..n + 1] == [x] + ys[..n];
    }
  }

  lemma {:induction false} SumPositive(s: seq<nat>, i: int)
    requires 0 <= i < |s|
    ensures s[i] <= Sum(s)
    decreases |s|
  {
    if i < |s| - 1 {
      SumPositive(s[..|s| - 1], i);
    }
  }
}

=== FILE: corpus.dfy ===
/** The corpus index built by `process_files`: an article table from article
    name to paragraph count, and a paragraph table from paragraph label to
    paragraph text, both insertion-ordered dictionaries filled file by file.
    The article name is the slice `path[6:-4]`; the paragraph label is the
    three-character slice `path[6:9]` followed by ", " and the paragraph's
    index in its article. */
module Corpus {
  import opened Basics
  import opened PyStr
  import opened OrderedDict
  import Segmenter

  const NameStart: int := 6
  const ArticleNameEnd: int := -4
  const ParagraphNameEnd: int := 9

  /** One input file: its path and its contents. */
  datatype SourceFile = SourceFile(path: string, text: string)

  /** The two dictionaries returned by `process_files`. */
  datatype Index = Index(articles: Dict<string, nat>, paragraphs: Dict<string, string>)

  /** `file[6:-4]`: the path without its first six and last four characters,
      or empty when the path is too short to have both. */
  function ArticleName(path: string): (r: string)
    ensures |path| >= 10 ==> r == path[6..|path| - 4]
    ensures |path| <= 10 ==> r == ""
  {
    Slice(path, NameStart, ArticleNameEnd)
  }

  /** `file[6:9]`: at most three characters, starting after the first six. */
  function LabelPrefix(path: string): (r: string)
    ensures |path| >= 9 ==> r == path[6..9]
    ensures 6 <= |path| <= 9 ==> r == path[6..]
    ensures |path| <= 6 ==> r == ""
  {
    Slice(path, NameStart, ParagraphNameEnd)
  }

  /** `prefix + ", " + str(index)`: the prefix, a comma and a space, then the
      decimal digits of the index. */
  function Label(prefix: string, index: nat): (r: string)
    ensures |r| > |prefix| + 2 && r[..|prefix|] == prefix && r[|prefix|..|prefix| + 2] == ", "
    ensures forall k :: |prefix| + 2 <= k < |r| ==> IsDigit(r[k])
    ensures ParseDecimal(r[|prefix| + 2..]) == index
  {
    var r := prefix + ", " + NatToString(index);
    assert r[|prefix| + 2..] == NatToString(index);
    r
  }

  /** The index digits of a label have no leading zero: they start with `0`
      only for index 0, whose digits are exactly `"0"`. */
  lemma LabelDigitsCanonical(prefix: string, index: nat)
    ensures Label(prefix, index)[|prefix| + 2] == '0' ==> index == 0
    ensures index == 0 ==> Label(prefix, index)[|prefix| + 2..] == "0"
  {
    assert Label(prefix, index)[|prefix| + 2..] == NatToString(index);
  }

  /** For a path as the directory glob produces it (`input/` + name + `.txt`), the article name is the
      file's base name and the label prefix its first three characters. */
  lemma GlobPathNames(name: string)
    ensures ArticleName("input/" + name + ".txt") == name
    ensures LabelPrefix("input/" + name + ".txt") == (name + ".txt")[..3]
  {
    var path := "input/" + name + ".txt";
    assert path[6..6 + |name|] == name;
    assert path[6..9] == (name + ".txt")[..3];
  }

  /** A label determines its prefix and its index: the digits of the index
      contain no space, so the last ", " of a label is the one after the prefix. */
  lemma LabelInjective(p1: string, i1: nat, p2: string, i2: nat)
    ensures Label(p1, i1) == Label(p2, i2) <==> p1 == p2 && i1 == i2
  {
    if Label(p1, i1) == Label(p2, i2) {
      var l := Label(p1, i1);
      var d1, d2 := NatToString(i1), NatToString(i2);
      if |d1| < |d2| {
        DigitsEndLabel(p1, i1, p2, i2);
      } else if |d2| < |d1| {
        DigitsEndLabel(p2, i2, p1, i1);
      }
      assert d1 == l[|l| - |d1|..] == d2;
      assert p1 == l[..|l| - |d1| - 2] == p2;
    }
  }

  lemma DigitsEndLabel(p1: string, i1: nat, p2: string, i2: nat)
    requires |NatToString(i1)| < |NatToString(i2)|
    ensures Label(p1, i1) != Label(p2, i2)
  {
    var l1, l2 := Label(p1, i1), Label(p2, i2);
    var d1, d2 := NatToString(i1), NatToString(i2);
    if |l1| == |l2| {
      var q := |l1| - |d1| - 1;
      assert l1[q] == ' ';
      assert l2[q] == d2[q - (|l2| - |d2|)];
      assert IsDigit(l2[q]);
    }
  }

  /** The paragraph assignments of one article, in ascending index order: the
      labels never repeat, and the texts are the article's paragraphs in order. */
  function Labelled(prefix: string, article: seq<string>): (r: seq<(string, string)>)
    ensures |r| == |article|
    ensures forall i :: 0 <= i < |article| ==> r[i] == (Label(prefix, i), article[i])
    ensures Distinct(PairKeys(r))
    ensures Values(Dict(r)) == article
  {
    var r := seq(|article|, i requires 0 <= i < |article| => (Label(prefix, i), article[i]));
    assert Distinct(PairKeys(r)) by {
      forall i, j | 0 <= i < j < |article|
        ensures Label(prefix, i) != Label(prefix, j)
      {
        LabelInjective(prefix, i, prefix, j);
      }
    }
    assert Values(Dict(r)) == article by {
      var v := Values(Dict(r));
      assert forall i :: 0 <= i < |v| ==> v[i] == article[i];
    }
    r
  }

  /** The paragraph assignments of all articles, file by file. */
  function AllLabelled(paths: seq<string>, arts: seq<seq<string>>): (r: seq<(string, string)>)
    requires |paths| == |arts|
    decreases |paths|
  {
    if paths == [] then []
    else
      var n := |paths| - 1;
      AllLabelled(paths[..n], arts[..n]) + Labelled(LabelPrefix(paths[n]), arts[n])
  }

  /** The article assignments, file by file. */
  function ArticleEntries(paths: seq<string>, arts: seq<seq<string>>): (r: seq<(string, nat)>)
    requires |paths| == |arts|
    ensures |r| == |paths|
    ensures forall x :: 0 <= x < |paths| ==> r[x] == (ArticleName(paths[x]), |arts[x]|)
  {
    seq(|paths|, x requires 0 <= x < |paths| => (ArticleName(paths[x]), |arts[x]|))
  }

  /** The two loops of `process_files` over already segmented articles. */
  function BuildIndex(paths: seq<string>, arts: seq<seq<string>>): (r: Index)
    requires |paths| == |arts|
    ensures Valid(r.articles) && Valid(r.paragraphs)
    decreases |paths|
  {
    if paths == [] then Index(Empty(), Empty())
    else
      var n := |paths| - 1;
      var prev := BuildIndex(paths[..n], arts[..n]);
      Index(Put(prev.articles, ArticleName(paths[n]), |arts[n]|),
            PutAll(prev.paragraphs, Labelled(LabelPrefix(paths[n]), arts[n])))
  }

  function Paths(files: seq<SourceFile>): (r: seq<string>)
    ensures |r| == |files|
    ensures forall x :: 0 <= x < |files| ==> r[x] == files[x].path
  {
    seq(|files|, x requires 0 <= x < |files| => files[x].path)
  }

  function Prefixes(paths: seq<string>): (r: seq<string>)
    ensures |r| == |paths|
    ensures forall x :: 0 <= x < |paths| ==> r[x] == LabelPrefix(paths[x])
  {
    seq(|paths|, x requires 0 <= x < |paths| => LabelPrefix(paths[x]))
  }

  function Names(paths: seq<string>): (r: seq<string>)
    ensures |r| == |paths|
    ensures forall x :: 0 <= x < |paths| ==> r[x] == ArticleName(paths[x])
  {
    seq(|paths|, x requires 0 <= x < |paths| => ArticleName(paths[x]))
  }

  /** `get_article` of every file, in file order. */
  function Segmented(files: seq<SourceFile>): (r: seq<Result<seq<string>, Failure>>)
    ensures |r| == |files|
    ensures forall x :: 0 <= x < |files| ==> r[x] == Segmenter.GetArticle(files[x].text)
    ensures forall x :: 0 <= x < |files| && r[x].Err? ==> r[x].error == HeaderIndexError
  {
    seq(|files|, x requires 0 <= x < |files| => Segmenter.GetArticle(files[x].text))
  }

  /** `get_article` applied to every file in order; the first failure aborts. */
  function SegmentAll(files: seq<SourceFile>): (r: Result<seq<seq<string>>, Failure>)
    ensures r.Ok? <==> forall x :: 0 <= x < |files| ==> Segmenter.GetArticle(files[x].text).Ok?
    ensures r.Err? ==> r.error == HeaderIndexError
    ensures r.Ok? ==> |r.value| == |files|
    ensures r.Ok? ==> forall x :: 0 <= x < |files| ==> Segmenter.GetArticle(files[x].text) == Ok(r.value[x])
  {
    var rs := Segmented(files);
    var r := CollectOk(rs);
    assert r.Ok? <==> forall x :: 0 <= x < |files| ==> rs[x].Ok?;
    r
  }

  /** `process_files`. */
  function ProcessFiles(files: seq<SourceFile>): (r: Result<Index, Failure>)
    ensures r.Ok? <==> SegmentAll(files).Ok?
    ensures r.Err? ==> r.error == HeaderIndexError
  {
    match SegmentAll(files)
    case Err(e) => Err(e)
    case Ok(arts) => Ok(BuildIndex(Paths(files), arts))
  }

  // ----- properties -----

  /** Both dictionaries are the result of their assignment lists, made in file order. */
  lemma {:induction false} BuildIndexIsPutAll(paths: seq<string>, arts: seq<seq<string>>)
    requires |paths| == |arts|
    ensures BuildIndex(paths, arts).paragraphs == PutAll(Empty(), AllLabelled(paths, arts))
    ensures BuildIndex(paths, arts).articles == PutAll(Empty(), ArticleEntries(paths, arts))
    decreases |paths|
  {
    if paths != [] {
      var n := |paths| - 1;
      BuildIndexIsPutAll(paths[..n], arts[..n]);
      PutAllAppend(Empty(), AllLabelled(paths[..n], arts[..n]), Labelled(LabelPrefix(paths[n]), arts[n]));
      assert ArticleEntries(paths, arts)[..n] == ArticleEntries(paths[..n], arts[..n]);
    }
  }

  lemma {:induction false} AllLabelledLength(paths: seq<string>, arts: seq<seq<string>>)
    requires |paths| == |arts|
    ensures |AllLabelled(paths, arts)| == Sum(Lengths(arts))
    decreases |paths|
  {
    if paths != [] {
      var n := |paths| - 1;
      AllLabelledLength(paths[..n], arts[..n]);
      assert Lengths(arts)[..n] == Lengths(arts[..n]);
    }
  }

  /** The paragraph texts, in assignment order, are the articles' paragraphs
      concatenated. */
  lemma {:induction false} AllLabelledTexts(paths: seq<string>, arts: seq<seq<string>>)
    requires |paths| == |arts|
    ensures Values(Dict(AllLabelled(paths, arts))) == Flatten(arts)
    decreases |paths|
  {
    if paths != [] {
      var n := |paths| - 1;
      AllLabelledTexts(paths[..n], arts[..n]);
      var a := AllLabelled(paths[..n], arts[..n]);
      var b := Labelled(LabelPrefix(paths[n]), arts[n]);
      assert AllLabelled(paths, arts) == a + b;
      ValuesConcat(a, b);
      assert Flatten(arts) == Flatten(arts[..n]) + arts[n];
    }
  }

  /** A label is assigned exactly when it names an existing paragraph of some file. */
  lemma {:induction false} AllLabelledKeys(paths: seq<string>, arts: seq<seq<string>>, k: string)
    requires |paths| == |arts|
    ensures k in PairKeys(AllLabelled(paths, arts)) <==>
      exists x, i :: 0 <= x < |paths| && 0 <= i < |arts[x]| && k == Label(LabelPrefix(paths[x]), i)
    decreases |paths|
  {
    if paths != [] {
      var n := |paths| - 1;
      var a := AllLabelled(paths[..n], arts[..n]);
      var b := Labelled(LabelPrefix(paths[n]), arts[n]);
      AllLabelledKeys(paths[..n], arts[..n], k);
      assert PairKeys(a + b) == PairKeys(a) + PairKeys(b);
      if exists x, i :: 0 <= x < |paths| && 0 <= i < |arts[x]| && k == Label(LabelPrefix(paths[x]), i) {
        var x, i :| 0 <= x < |paths| && 0 <= i < |arts[x]| && k == Label(LabelPrefix(paths[x]), i);
        if x == n {
          assert PairKeys(b)[i] == k;
        } else {
          assert paths[..n][x] == paths[x] && arts[..n][x] == arts[x];
        }
      }
    }
  }

  /** When every article has a paragraph, all labels are distinct exactly when
      the files' three-character prefixes are. */
  lemma {:induction false} LabelsDistinctIffPrefixesDistinct(paths: seq<string>, arts: seq<seq<string>>)
    requires |paths| == |arts|
    requires forall x :: 0 <= x < |arts| ==> |arts[x]| >= 1
    ensures Distinct(PairKeys(AllLabelled(paths, arts))) <==> Distinct(Prefixes(paths))
    decreases |paths|
  {
    if paths != [] {
      var n := |paths| - 1;
      var p := LabelPrefix(paths[n]);
      var ka := PairKeys(AllLabelled(paths[..n], arts[..n]));
      var kb := PairKeys(Labelled(p, arts[n]));
      LabelsDistinctIffPrefixesDistinct(paths[..n], arts[..n]);
      AllLabelledKeysSnoc(paths, arts);
      DistinctConcat(ka, kb);
      PrefixesSnoc(paths);
      DistinctSnoc(Prefixes(paths[..n]), p);
      if p in Prefixes(paths[..n]) {
        SharedPrefixCollides(paths[..n], arts[..n], p, arts[n]);
      } else {
        FreshPrefixDisjoint(paths[..n], arts[..n], p, arts[n]);
      }
    }
  }

  lemma AllLabelledKeysSnoc(paths: seq<string>, arts: seq<seq<string>>)
    requires |paths| == |arts| && paths != []
    ensures PairKeys(AllLabelled(paths, arts)) ==
      PairKeys(AllLabelled(paths[..|paths| - 1], arts[..|paths| - 1]))
        + PairKeys(Labelled(LabelPrefix(paths[|paths| - 1]), arts[|paths| - 1]))
  {
    var n := |paths| - 1;
    PairKeysConcat(AllLabelled(paths[..n], arts[..n]), Labelled(LabelPrefix(paths[n]), arts[n]));
  }

  lemma PrefixesSnoc(paths: seq<string>)
    requires paths != []
    ensures Prefixes(paths) == Prefixes(paths[..|paths| - 1]) + [LabelPrefix(paths[|paths| - 1])]
  {
  }

  /** A prefix already used by an earlier file repeats that file's first label. */
  lemma SharedPrefixCollides(paths: seq<string>, arts: seq<seq<string>>, p: string, article: seq<string>)
    requires |paths| == |arts| && |article| >= 1
    requires forall x :: 0 <= x < |arts| ==> |arts[x]| >= 1
    requires p in Prefixes(paths)
    ensures !(forall k :: k in PairKeys(AllLabelled(paths, arts)) ==> k !in PairKeys(Labelled(p, article)))
  {
    var x :| 0 <= x < |paths| && Prefixes(paths)[x] == p;
    AllLabelledKeys(paths, arts, Label(p, 0));
    assert PairKeys(Labelled(p, article))[0] == Label(p, 0);
  }

  /** A prefix no earlier file uses yields labels no earlier file has. */
  lemma FreshPrefixDisjoint(paths: seq<string>, arts: seq<seq<string>>, p: string, article: seq<string>)
    requires |paths| == |arts|
    requires p !in Prefixes(paths)
    ensures forall k :: k in PairKeys(AllLabelled(paths, arts)) ==> k !in PairKeys(Labelled(p, article))
  {
    var b := Labelled(p, article);
    forall k | k in PairKeys(AllLabelled(paths, arts))
      ensures k !in PairKeys(b)
    {
      AllLabelledKeys(paths, arts, k);
      var x, i :| 0 <= x < |paths| && 0 <= i < |arts[x]| && k == Label(LabelPrefix(paths[x]), i);
      assert Prefixes(paths)[x] == LabelPrefix(paths[x]);
      forall j | 0 <= j < |article|
        ensures PairKeys(b)[j] != k
      {
        LabelInjective(p, j, LabelPrefix(paths[x]), i);
      }
    }
  }

  /** Every segmented article has at least one paragraph. */
  lemma SegmentedArticlesNonEmpty(files: seq<SourceFile>)
    requires SegmentAll(files).Ok?
    ensures forall x :: 0 <= x < |files| ==> |SegmentAll(files).value[x]| >= 1
  {
  }

  /** The paragraph table never has more entries than there are paragraphs, and
      has exactly as many precisely when no two files share the prefix
      `path[6:9]`; otherwise a later file's paragraphs overwrite earlier ones. */
  lemma ParagraphCountIffDistinctPrefixes(files: seq<SourceFile>)
    requires ProcessFiles(files).Ok?
    ensures Size(ProcessFiles(files).value.paragraphs) <= Sum(Lengths(SegmentAll(files).value))
    ensures Size(ProcessFiles(files).value.paragraphs) == Sum(Lengths(SegmentAll(files).value))
      <==> Distinct(Prefixes(Paths(files)))
  {
    SegmentedArticlesNonEmpty(files);
    IndexParagraphCount(Paths(files), SegmentAll(files).value);
  }

  lemma IndexParagraphCount(paths: seq<string>, arts: seq<seq<string>>)
    requires |paths| == |arts|
    requires forall x :: 0 <= x < |arts| ==> |arts[x]| >= 1
    ensures Size(BuildIndex(paths, arts).paragraphs) <= Sum(Lengths(arts))
    ensures Size(BuildIndex(paths, arts).paragraphs) == Sum(Lengths(arts)) <==> Distinct(Prefixes(paths))
  {
    BuildIndexIsPutAll(paths, arts);
    PutAllSize(AllLabelled(paths, arts));
    AllLabelledLength(paths, arts);
    LabelsDistinctIffPrefixesDistinct(paths, arts);
  }

  /** With distinct prefixes the paragraph table lists, file by file and then by
      ascending index, every paragraph under its label: its values are the
      concatenated articles, which is the order the similarity matrix is indexed in. */
  lemma ParagraphOrder(files: seq<SourceFile>)
    requires ProcessFiles(files).Ok?
    requires Distinct(Prefixes(Paths(files)))
    ensures ProcessFiles(files).value.paragraphs.entries == AllLabelled(Paths(files), SegmentAll(files).value)
    ensures Values(ProcessFiles(files).value.paragraphs) == Flatten(SegmentAll(files).value)
  {
    ProcessedIndex(files);
    IndexParagraphOrder(Paths(files), SegmentAll(files).value);
  }

  /** A successful `process_files` builds its tables from the segmented
      articles, none of which is empty. */
  lemma ProcessedIndex(files: seq<SourceFile>)
    requires ProcessFiles(files).Ok?
    ensures SegmentAll(files).Ok?
    ensures ProcessFiles(files).value == BuildIndex(Paths(files), SegmentAll(files).value)
    ensures |Paths(files)| == |SegmentAll(files).value|
    ensures forall x :: 0 <= x < |files| ==> |SegmentAll(files).value[x]| >= 1
  {
    SegmentedArticlesNonEmpty(files);
  }

  lemma IndexParagraphOrder(paths: seq<string>, arts: seq<seq<string>>)
    requires |paths| == |arts|
    requires forall x :: 0 <= x < |arts| ==> |arts[x]| >= 1
    requires Distinct(Prefixes(paths))
    ensures BuildIndex(paths, arts).paragraphs.entries == AllLabelled(paths, arts)
    ensures Values(BuildIndex(paths, arts).paragraphs) == Flatten(arts)
  {
    BuildIndexIsPutAll(paths, arts);
    LabelsDistinctIffPrefixesDistinct(paths, arts);
    PutAllDistinct(AllLabelled(paths, arts));
    assert BuildIndex(paths, arts).paragraphs == Dict(AllLabelled(paths, arts));
    AllLabelledTexts(paths, arts);
  }

  /** The article table has one entry per file exactly when the article names are
      distinct; it then lists the names and paragraph counts in file order. */
  lemma ArticleTable(files: seq<SourceFile>)
    requires ProcessFiles(files).Ok?
    ensures Size(ProcessFiles(files).value.articles) == |files| <==> Distinct(Names(Paths(files)))
    ensures Distinct(Names(Paths(files))) ==>
      Keys(ProcessFiles(files).value.articles) == Names(Paths(files)) &&
      Values(ProcessFiles(files).value.articles) == Lengths(SegmentAll(files).value)
  {
    IndexArticleTable(Paths(files), SegmentAll(files).value);
  }

  lemma IndexArticleTable(paths: seq<string>, arts: seq<seq<string>>)
    requires |paths| == |arts|
    ensures Size(BuildIndex(paths, arts).articles) == |paths| <==> Distinct(Names(paths))
    ensures Distinct(Names(paths)) ==>
      Keys(BuildIndex(paths, arts).articles) == Names(paths) &&
      Values(BuildIndex(paths, arts).articles) == Lengths(arts)
  {
    var entries := ArticleEntries(paths, arts);
    BuildIndexIsPutAll(paths, arts);
    PutAllSize(entries);
    assert PairKeys(entries) == Names(paths);
    if Distinct(Names(paths)) {
      PutAllDistinct(entries);
    }
  }

  /** Two articles whose file names start with the same three characters share
      every label of their common paragraph indices, as `aristotle-logic` and
      `aristotle-ethics` would. */
  lemma PrefixCollision(name1: string, name2: string, i: nat)
    requires |name1| >= 3 && |name2| >= 3 && name1[..3] == name2[..3]
    ensures Label(LabelPrefix("input/" + name1 + ".txt"), i)
      == Label(LabelPrefix("input/" + name2 + ".txt"), i)
  {
    GlobPathNames(name1);
    GlobPathNames(name2);
    assert (name1 + ".txt")[..3] == name1[..3];
    assert (name2 + ".txt")[..3] == name2[..3];
  }
}

=== FILE: legacy.dfy ===
/** The earliest revision's `main` and `calculate_proximities`. `main` counts
    the paragraphs of all articles and allocates a square matrix of that size;
    `calculate_proximities` then walks article by article, paragraph by
    paragraph, and for every pair of paragraphs stores their score. It indexes
    the matrix with the paragraphs' positions inside their own articles, so
    paragraphs of different articles land in the same cells and later stores
    overwrite earlier ones, while cells beyond the longest article are never
    written.

    The stores are modelled as the list of writes the loops perform, in order;
    a cell's content is the value of the last write to it, or `None` for a
    cell left as `np.empty` allocated it. The score of two paragraphs is a
    parameter (`compare_paragraphs`, an embedding and an inner product). The
    corrected bookkeeping indexes with the paragraphs' positions in the whole
    corpus: `flat` selects it. */
module Legacy {
  import opened Basics

  datatype Write = Write(row: nat, col: nat, value: real)

  type Score = (string, string) -> real

  /** `num_paragraphs` as `main` accumulates it. */
  method CountParagraphs(articles: seq<seq<string>>) returns (num: nat)
    ensures num == Sum(Lengths(articles))
    ensures num == |Flatten(articles)|
  {
    num := 0;
    var i := 0;
    while i < |articles|
      invariant 0 <= i <= |articles|
      invariant num == Sum(Lengths(articles[..i]))
    {
      assert articles[..i + 1][..i] == articles[..i];
      assert Lengths(articles[..i + 1]) == Lengths(articles[..i]) + [|articles[i]|];
      assert Lengths(articles[..i + 1])[..i] == Lengths(articles[..i]);
      num := num + |articles[i]|;
      i := i + 1;
    }
    assert articles[..i] == articles;
    FlattenLength(articles);
  }

  /** The length of the longest article. */
  function MaxLen(articles: seq<seq<string>>): (r: nat)
    ensures forall k :: 0 <= k < |articles| ==> |articles[k]| <= r
    ensures |articles| > 0 ==> exists k :: 0 <= k < |articles| && |articles[k]| == r
    decreases |articles|
  {
    if articles == [] then 0
    else
      var init := articles[..|articles| - 1];
      var r := Max(MaxLen(init), |articles[|articles| - 1]|);
      assert forall k :: 0 <= k < |init| ==> init[k] == articles[k];
      r
  }

  /** No article is longer than all articles together. */
  lemma MaxLenBound(articles: seq<seq<string>>)
    ensures MaxLen(articles) <= Sum(Lengths(articles))
  {
    if articles != [] {
      var k :| 0 <= k < |articles| && |articles[k]| == MaxLen(articles);
      SumPositive(Lengths(articles), k);
    }
  }

  /** The content of cell `(r, c)` after the writes `ws`: the last value
      written to it. */
  function Final(ws: seq<Write>, r: nat, c: nat): Option<real>
    decreases |ws|
  {
    if ws == [] then None
    else
      var w := ws[|ws| - 1];
      if w.row == r && w.col == c then Some(w.value) else Final(ws[..|ws| - 1], r, c)
  }

  /** Writes performed after `a` win over those of `a`. */
  lemma {:induction false} FinalConcat(a: seq<Write>, b: seq<Write>, r: nat, c: nat)
    ensures Final(a + b, r, c) == if Final(b, r, c).Some? then Final(b, r, c) else Final(a, r, c)
    decreases |b|
  {
    if b == [] {
      assert a + b == a;
    } else {
      assert (a + b)[..|a + b| - 1] == a + b[..|b| - 1];
      FinalConcat(a, b[..|b| - 1], r, c);
    }
  }

  /** Where the columns of the `k`-th compared article start. */
  function Base(before: seq<seq<string>>, flat: bool): nat {
    if flat then Sum(Lengths(before)) else 0
  }

  /** The innermost loop: one write per paragraph of `compared`. */
  function InnerWrites(t: string, row: nat, colBase: nat, compared: seq<string>, score: Score): seq<Write>
    decreases |compared|
  {
    if compared == [] then []
    else
      var n := |compared| - 1;
      InnerWrites(t, row, colBase, compared[..n], score) + [Write(row, colBase + n, score(t, compared[n]))]
  }

  /** The two inner loops: paragraph `t` against every paragraph of every article. */
  function SweepWrites(t: string, row: nat, articles: seq<seq<string>>, flat: bool, score: Score): seq<Write>
    decreases |articles|
  {
    if articles == [] then []
    else
      var init := articles[..|articles| - 1];
      SweepWrites(t, row, init, flat, score) + InnerWrites(t, row, Base(init, flat), articles[|articles| - 1], score)
  }

  /** The loop over the paragraphs of one article. */
  function ArticleWrites(target: seq<string>, rowBase: nat, articles: seq<seq<string>>, flat: bool, score: Score): seq<Write>
    decreases |target|
  {
    if target == [] then []
    else
      var n := |target| - 1;
      ArticleWrites(target[..n], rowBase, articles, flat, score) + SweepWrites(target[n], rowBase + n, articles, flat, score)
  }

  /** The outermost loop, over the articles of `outer`. */
  function AllWrites(outer: seq<seq<string>>, articles: seq<seq<string>>, flat: bool, score: Score): seq<Write>
    decreases |outer|
  {
    if outer == [] then []
    else
      var init := outer[..|outer| - 1];
      AllWrites(init, articles, flat, score) + ArticleWrites(outer[|outer| - 1], Base(init, flat), articles, flat, score)
  }

  /** `calculate_proximities` as written: every paragraph indexed by its
      position inside its own article. The loops store once for every ordered
      pair of paragraphs, `num_paragraphs` squared stores in all. */
  function CalculateProximities(articles: seq<seq<string>>, score: Score): (ws: seq<Write>)
    ensures |ws| == Sum(Lengths(articles)) * Sum(Lengths(articles))
  {
    AllWritesLength(articles, articles, false, score);
    AllWrites(articles, articles, false, score)
  }

  /** `calculate_proximities` with the paragraphs indexed by their position in
      the corpus; it performs the same number of stores. */
  function CorrectedProximities(articles: seq<seq<string>>, score: Score): (ws: seq<Write>)
    ensures |ws| == Sum(Lengths(articles)) * Sum(Lengths(articles))
  {
    AllWritesLength(articles, articles, true, score);
    AllWrites(articles, articles, true, score)
  }

  // ----- how many stores the loops make -----

  lemma {:induction false} InnerWritesLength(t: string, row: nat, colBase: nat, compared: seq<string>, score: Score)
    ensures |InnerWrites(t, row, colBase, compared, score)| == |compared|
    decreases |compared|
  {
    if compared != [] {
      InnerWritesLength(t, row, colBase, compared[..|compared| - 1], score);
    }
  }

  lemma {:induction false} SweepWritesLength(t: string, row: nat, articles: seq<seq<string>>, flat: bool, score: Score)
    ensures |SweepWrites(t, row, articles, flat, score)| == Sum(Lengths(articles))
    decreases |articles|
  {
    if articles != [] {
      var init := articles[..|articles| - 1];
      SweepWritesLength(t, row, init, flat, score);
      InnerWritesLength(t, row, Base(init, flat), articles[|articles| - 1], score);
      FlattenSnoc(articles);
    }
  }

  lemma {:induction false} ArticleWritesLength(target: seq<string>, rowBase: nat, articles: seq<seq<string>>, flat: bool, score: Score)
    ensures |ArticleWrites(target, rowBase, articles, flat, score)| == |target| * Sum(Lengths(articles))
    decreases |target|
  {
    if target != [] {
      var n := |target| - 1;
      var total := Sum(Lengths(articles));
      var before := ArticleWrites(target[..n], rowBase, articles, flat, score);
      var sweep := SweepWrites(target[n], rowBase + n, articles, flat, score);
      ArticleWritesLength(target[..n], rowBase, articles, flat, score);
      SweepWritesLength(target[n], rowBase + n, articles, flat, score);
      assert |ArticleWrites(target, rowBase, articles, flat, score)| == |before| + |sweep|;
      CountStep(|before| + |sweep|, |before|, |sweep|, n, 1, total);
    }
  }

  lemma {:induction false} AllWritesLength(outer: seq<seq<string>>, articles: seq<seq<string>>, flat: bool, score: Score)
    ensures |AllWrites(outer, articles, flat, score)| == Sum(Lengths(outer)) * Sum(Lengths(articles))
    decreases |outer|
  {
    if outer != [] {
      var init := outer[..|outer| - 1];
      var last := outer[|outer| - 1];
      var total := Sum(Lengths(articles));
      var before := AllWrites(init, articles, flat, score);
      var block := ArticleWrites(last, Base(init, flat), articles, flat, score);
      AllWritesLength(init, articles, flat, score);
      ArticleWritesLength(last, Base(init, flat), articles, flat, score);
      assert |AllWrites(outer, articles, flat, score)| == |before| + |block|;
      FlattenSnoc(outer);
      CountStep(|before| + |block|, |before|, |block|, Sum(Lengths(init)), |last|, total);
    }
  }

  /** Adding `b` rows of `c` stores to `a` rows of them. */
  lemma CountStep(whole: nat, x: nat, y: nat, a: nat, b: nat, c: nat)
    requires whole == x + y && x == a * c && y == b * c
    ensures whole == (a + b) * c
  {}

  // ----- the bookkeeping as written -----

  lemma {:induction false} InnerWritesCells(t: string, row: nat, colBase: nat, compared: seq<string>, score: Score, r: nat, c: nat)
    ensures Final(InnerWrites(t, row, colBase, compared, score), r, c) ==
      if r == row && colBase <= c < colBase + |compared| then Some(score(t, compared[c - colBase])) else None
    decreases |compared|
  {
    if compared != [] {
      var n := |compared| - 1;
      var ws := InnerWrites(t, row, colBase, compared, score);
      assert ws[..|ws| - 1] == InnerWrites(t, row, colBase, compared[..n], score);
      InnerWritesCells(t, row, colBase, compared[..n], score, r, c);
    }
  }

  lemma {:induction false} SweepWritesCells(t: string, row: nat, articles: seq<seq<string>>, score: Score, r: nat, c: nat)
    ensures Final(SweepWrites(t, row, articles, false, score), r, c).Some? <==> r == row && c < MaxLen(articles)
    decreases |articles|
  {
    if articles != [] {
      var init := articles[..|articles| - 1];
      SweepWritesCells(t, row, init, score, r, c);
      InnerWritesCells(t, row, 0, articles[|articles| - 1], score, r, c);
      FinalConcat(SweepWrites(t, row, init, false, score), InnerWrites(t, row, 0, articles[|articles| - 1], score), r, c);
    }
  }

  lemma {:induction false} ArticleWritesCells(target: seq<string>, articles: seq<seq<string>>, score: Score, r: nat, c: nat)
    ensures Final(ArticleWrites(target, 0, articles, false, score), r, c).Some? <==>
      r < |target| && c < MaxLen(articles)
    decreases |target|
  {
    if target != [] {
      var n := |target| - 1;
      ArticleWritesCells(target[..n], articles, score, r, c);
      SweepWritesCells(target[n], n, articles, score, r, c);
      FinalConcat(ArticleWrites(target[..n], 0, articles, false, score), SweepWrites(target[n], n, articles, false, score), r, c);
    }
  }

  lemma {:induction false} AllWritesCells(outer: seq<seq<string>>, articles: seq<seq<string>>, score: Score, r: nat, c: nat)
    ensures Final(AllWrites(outer, articles, false, score), r, c).Some? <==>
      r < MaxLen(outer) && c < MaxLen(articles)
    decreases |outer|
  {
    if outer != [] {
      var init := outer[..|outer| - 1];
      AllWritesCells(init, articles, score, r, c);
      ArticleWritesCells(outer[|outer| - 1], articles, score, r, c);
      FinalConcat(AllWrites(init, articles, false, score), ArticleWrites(outer[|outer| - 1], 0, articles, false, score), r, c);
    }
  }

  /** As written, exactly the cells whose row and column are both below the
      longest article's length are ever written; that square lies inside the
      `num_paragraphs` × `num_paragraphs` matrix, so no store is out of bounds. */
  lemma WrittenCells(articles: seq<seq<string>>, score: Score, r: nat, c: nat)
    ensures Final(CalculateProximities(articles, score), r, c).Some? <==>
      r < MaxLen(articles) && c < MaxLen(articles)
    ensures MaxLen(articles) <= Sum(Lengths(articles))
  {
    AllWritesCells(articles, articles, score, r, c);
    MaxLenBound(articles);
  }

  /** Two one-paragraph articles: the matrix is 2 × 2, yet cell `(0, 1)` is never
      written, and cell `(0, 0)` ends up holding the second paragraph's score
      against itself rather than the first's. */
  lemma LegacyLosesCells(articles: seq<seq<string>>, a: string, b: string, score: Score)
    requires articles == [[a], [b]]
    ensures Sum(Lengths(articles)) == 2
    ensures Final(CalculateProximities(articles, score), 0, 1) == None
    ensures Final(CalculateProximities(articles, score), 0, 0) == Some(score(b, b))
    ensures Final(CorrectedProximities(articles, score), 0, 0) == Some(score(a, a))
    ensures Final(CorrectedProximities(articles, score), 0, 1) == Some(score(a, b))
  {
    var lens := Lengths(articles);
    assert lens == [1, 1];
    assert lens[..1] == [1];
    assert Sum(lens[..1]) == 1 by {
      assert lens[..1][..0] == [];
    }
    assert MaxLen(articles) == 1 by {
      assert articles[..1] == [[a]];
      assert articles[..1][..0] == [];
    }
    WrittenCells(articles, score, 0, 1);
    var init := articles[..1];
    var last := [b];
    assert articles[1] == last;
    var tail := ArticleWrites(last, 0, articles, false, score);
    assert tail == ArticleWrites([], 0, articles, false, score) + SweepWrites(b, 0, articles, false, score) by {
      assert last[..0] == [];
    }
    var inner := InnerWrites(b, 0, 0, last, score);
    assert inner == [] + [Write(0, 0, score(b, b))] by {
      assert last[..0] == [];
      assert InnerWrites(b, 0, 0, last[..0], score) == [];
      assert last[0] == b;
    }
    assert SweepWrites(b, 0, articles, false, score) == SweepWrites(b, 0, init, false, score) + inner;
    FinalConcat(SweepWrites(b, 0, init, false, score), inner, 0, 0);
    FinalConcat([], SweepWrites(b, 0, articles, false, score), 0, 0);
    FinalConcat(AllWrites(init, articles, false, score), tail, 0, 0);
    assert Final(inner, 0, 0) == Some(score(b, b));
    CorrectedCells(articles, score, 0, 0);
    CorrectedCells(articles, score, 0, 1);
    assert Flatten(articles) == [a, b] by {
      assert Flatten(init) == Flatten([]) + [a] by {
        assert init[..0] == [];
      }
    }
  }

  // ----- the corrected bookkeeping -----

  /** Splitting off the last article: its paragraphs follow all earlier ones. */
  lemma FlattenSnoc(ss: seq<seq<string>>)
    requires ss != []
    ensures Sum(Lengths(ss)) == Sum(Lengths(ss[..|ss| - 1])) + |ss[|ss| - 1]|
    ensures |Flatten(ss[..|ss| - 1])| == Sum(Lengths(ss[..|ss| - 1]))
    ensures Flatten(ss) == Flatten(ss[..|ss| - 1]) + ss[|ss| - 1]
  {
    assert Lengths(ss)[..|ss| - 1] == Lengths(ss[..|ss| - 1]);
    FlattenLength(ss[..|ss| - 1]);
  }

  lemma {:induction false} CorrectedSweepCells(t: string, row: nat, articles: seq<seq<string>>, score: Score, r: nat, c: nat)
    ensures Final(SweepWrites(t, row, articles, true, score), r, c) ==
      if r == row && c < Sum(Lengths(articles)) then Some(score(t, FlattenAt(articles, c))) else None
    decreases |articles|
  {
    if articles != [] {
      var init := articles[..|articles| - 1];
      var last := articles[|articles| - 1];
      var base := Sum(Lengths(init));
      FlattenAtSnoc(articles, c);
      CorrectedSweepCells(t, row, init, score, r, c);
      InnerWritesCells(t, row, base, last, score, r, c);
      FinalConcat(SweepWrites(t, row, init, true, score), InnerWrites(t, row, base, last, score), r, c);
    }
  }

  /** Splitting off the last article: paragraph `c` of the corpus is paragraph
      `c` of the earlier articles, or a paragraph of the last one. */
  lemma FlattenAtSnoc(ss: seq<seq<string>>, c: nat)
    requires ss != []
    ensures Sum(Lengths(ss)) == Sum(Lengths(ss[..|ss| - 1])) + |ss[|ss| - 1]|
    ensures c < Sum(Lengths(ss[..|ss| - 1])) ==> FlattenAt(ss, c) == FlattenAt(ss[..|ss| - 1], c)
    ensures Sum(Lengths(ss[..|ss| - 1])) <= c < Sum(Lengths(ss)) ==>
      FlattenAt(ss, c) == ss[|ss| - 1][c - Sum(Lengths(ss[..|ss| - 1]))]
  {
    FlattenSnoc(ss);
  }

  /** Paragraph `c` of the corpus, in reading order. */
  function FlattenAt(articles: seq<seq<string>>, c: nat): string
    requires c < Sum(Lengths(articles))
  {
    FlattenLength(articles);
    Flatten(articles)[c]
  }

  lemma {:induction false} CorrectedArticleCells(target: seq<string>, rowBase: nat, articles: seq<seq<string>>, score: Score, r: nat, c: nat)
    ensures Final(ArticleWrites(target, rowBase, articles, true, score), r, c) ==
      if rowBase <= r < rowBase + |target| && c < Sum(Lengths(articles))
      then Some(score(target[r - rowBase], FlattenAt(articles, c))) else None
    decreases |target|
  {
    if target != [] {
      var n := |target| - 1;
      CorrectedArticleCells(target[..n], rowBase, articles, score, r, c);
      CorrectedSweepCells(target[n], rowBase + n, articles, score, r, c);
      var a, b := ArticleWrites(target[..n], rowBase, articles, true, score), SweepWrites(target[n], rowBase + n, articles, true, score);
      assert ArticleWrites(target, rowBase, articles, true, score) == a + b;
      FinalConcat(a, b, r, c);
      if rowBase <= r < rowBase + n {
        assert target[..n][r - rowBase] == target[r - rowBase];
      }
    }
  }

  lemma {:induction false} CorrectedAllCells(outer: seq<seq<string>>, articles: seq<seq<string>>, score: Score, r: nat, c: nat)
    ensures Final(AllWrites(outer, articles, true, score), r, c) ==
      if r < Sum(Lengths(outer)) && c < Sum(Lengths(articles))
      then Some(score(FlattenAt(outer, r), FlattenAt(articles, c))) else None
    decreases |outer|
  {
    if outer != [] {
      var init := outer[..|outer| - 1];
      var last := outer[|outer| - 1];
      var base := Sum(Lengths(init));
      FlattenAtSnoc(outer, r);
      CorrectedAllCells(init, articles, score, r, c);
      CorrectedArticleCells(last, base, articles, score, r, c);
      var a, b := AllWrites(init, articles, true, score), ArticleWrites(last, base, articles, true, score);
      assert AllWrites(outer, articles, true, score) == a + b;
      FinalConcat(a, b, r, c);
    }
  }

  /** Indexed by corpus position, every cell of the `num_paragraphs` square is
      written, and its final value is the score of paragraphs `r` and `c` of the
      corpus in reading order; nothing outside the square is written. */
  lemma CorrectedCells(articles: seq<seq<string>>, score: Score, r: nat, c: nat)
    ensures Final(CorrectedProximities(articles, score), r, c) ==
      if r < Sum(Lengths(articles)) && c < Sum(Lengths(articles))
      then Some(score(FlattenAt(articles, r), FlattenAt(articles, c))) else None
  {
    CorrectedAllCells(articles, articles, score, r, c);
  }
}

=== FILE: ordered_dict.dfy ===
/** Python's `dict` as the analysis uses it: keys are unique, iteration follows
    first insertion, and assigning to a present key replaces its value without
    moving it. A dictionary is its list of entries in iteration order. */
module OrderedDict {
  import opened Basics

  datatype Dict<K, V> = Dict(entries: seq<(K, V)>)

  function Empty<K, V>(): Dict<K, V> {
    Dict([])
  }

  /** The keys of a list of key/value pairs, in order. */
  function PairKeys<K, V>(ps: seq<(K, V)>): (r: seq<K>)
    ensures |r| == |ps|
    ensures forall i :: 0 <= i < |ps| ==> r[i] == ps[i].0
  {
    seq(|ps|, i requires 0 <= i < |ps| => ps[i].0)
  }

  lemma PairKeysConcat<K, V>(ps: seq<(K, V)>, qs: seq<(K, V)>)
    ensures PairKeys(ps + qs) == PairKeys(ps) + PairKeys(qs)
  {
    var l, r := PairKeys(ps + qs), PairKeys(ps) + PairKeys(qs);
    assert |l| == |r|;
    forall i | 0 <= i < |l| ensures l[i] == r[i] {
      if i < |ps| {
        assert (ps + qs)[i] == ps[i];
      } else {
        assert (ps + qs)[i] == qs[i - |ps|];
      }
    }
  }

  /** `list(d.keys())`. */
  function Keys<K, V>(d: Dict<K, V>): seq<K> {
    PairKeys(d.entries)
  }

  /** `list(d.values())`. */
  function Values<K, V>(d: Dict<K, V>): (r: seq<V>)
    ensures |r| == |d.entries|
    ensures forall i :: 0 <= i < |r| ==> r[i] == d.entries[i].1
  {
    seq(|d.entries|, i requires 0 <= i < |d.entries| => d.entries[i].1)
  }

  lemma ValuesConcat<K, V>(ps: seq<(K, V)>, qs: seq<(K, V)>)
    ensures Values(Dict(ps + qs)) == Values(Dict(ps)) + Values(Dict(qs))
  {
    var l, r := Values(Dict(ps + qs)), Values(Dict(ps)) + Values(Dict(qs));
    assert |l| == |r|;
    forall i | 0 <= i < |l| ensures l[i] == r[i] {
      if i < |ps| {
        assert (ps + qs)[i] == ps[i];
      } else {
        assert (ps + qs)[i] == qs[i - |ps|];
      }
    }
  }

  /** `len(d)`. */
  function Size<K, V>(d: Dict<K, V>): nat {
    |d.entries|
  }

  predicate Valid<K(==), V>(d: Dict<K, V>) {
    Distinct(Keys(d))
  }

  /** Position of key `k` in iteration order. */
  function IndexOf<K(==), V>(d: Dict<K, V>, k: K): (r: Option<nat>)
    ensures r.Some? ==> r.value < |d.entries| && d.entries[r.value].0 == k
    ensures r.None? <==> k !in Keys(d)
    decreases |d.entries|
  {
    if d.entries == [] then None
    else if d.entries[|d.entries| - 1].0 == k then Some(|d.entries| - 1)
    else
      var r := IndexOf(Dict(d.entries[..|d.entries| - 1]), k);
      assert Keys(d) == Keys(Dict(d.entries[..|d.entries| - 1])) + [d.entries[|d.entries| - 1].0];
      r
  }

  /** `d.get(k)`. */
  function Get<K(==), V>(d: Dict<K, V>, k: K): Option<V> {
    match IndexOf(d, k)
    case Some(i) => Some(d.entries[i].1)
    case None => None
  }

  lemma GetAt<K, V>(d: Dict<K, V>, i: int)
    requires Valid(d) && 0 <= i < |d.entries|
    ensures Get(d, d.entries[i].0) == Some(d.entries[i].1)
  {
    var j := IndexOf(d, d.entries[i].0).value;
    assert Keys(d)[j] == Keys(d)[i];
  }

  /** `d[k] = v`. */
  function Put<K(==), V>(d: Dict<K, V>, k: K, v: V): (r: Dict<K, V>)
    requires Valid(d)
    ensures Valid(r)
    ensures Get(r, k) == Some(v)
    ensures k in Keys(d) ==> Keys(r) == Keys(d)
    ensures k !in Keys(d) ==> Keys(r) == Keys(d) + [k]
  {
    match IndexOf(d, k)
    case Some(i) =>
      var r := Dict(d.entries[i := (k, v)]);
      assert Keys(r) == Keys(d);
      GetAt(r, i);
      r
    case None =>
      var r := Dict(d.entries + [(k, v)]);
      assert Keys(r) == Keys(d) + [k];
      GetAt(r, |d.entries|);
      r
  }

  /** After `d[k] = v` a key is present when it was before or is `k`. */
  lemma PutKeys<K, V>(d: Dict<K, V>, k: K, v: V, k': K)
    requires Valid(d)
    ensures k' in Keys(Put(d, k, v)) <==> k' in Keys(d) || k' == k
  {
  }

  lemma PairKeysSnoc<K, V>(ps: seq<(K, V)>)
    requires ps != []
    ensures PairKeys(ps) == PairKeys(ps[..|ps| - 1]) + [ps[|ps| - 1].0]
  {
  }

  /** `d[k] = v` with a new key appends the pair; with a present key the
      number of entries stays the same. */
  lemma PutEntries<K, V>(d: Dict<K, V>, k: K, v: V)
    requires Valid(d)
    ensures k !in Keys(d) ==> Put(d, k, v).entries == d.entries + [(k, v)]
    ensures Size(Put(d, k, v)) == Size(d) + (if k in Keys(d) then 0 else 1)
  {
  }

  /** `d[k] = v` leaves every other key's value alone. */
  lemma PutOther<K, V>(d: Dict<K, V>, k: K, v: V, k': K)
    requires Valid(d) && k' != k
    ensures Get(Put(d, k, v), k') == Get(d, k')
  {
    var r := Put(d, k, v);
    match IndexOf(d, k)
    case Some(i) =>
      IndexOfUnique(r, k');
      IndexOfUnique(d, k');
    case None =>
      assert r.entries[..|r.entries| - 1] == d.entries;
  }

  lemma IndexOfUnique<K, V>(d: Dict<K, V>, k: K)
    requires Valid(d)
    ensures forall i :: 0 <= i < |d.entries| && d.entries[i].0 == k ==> IndexOf(d, k) == Some(i)
  {
    forall i | 0 <= i < |d.entries| && d.entries[i].0 == k
      ensures IndexOf(d, k) == Some(i)
    {
      var j := IndexOf(d, k).value;
      assert Keys(d)[j] == Keys(d)[i];
    }
  }

  /** The assignments `d[k] = v` for every pair of `ps`, in order. */
  function PutAll<K(==), V>(d: Dict<K, V>, ps: seq<(K, V)>): (r: Dict<K, V>)
    requires Valid(d)
    ensures Valid(r)
    decreases |ps|
  {
    if ps == [] then d else
      var last := ps[|ps| - 1];
      Put(PutAll(d, ps[..|ps| - 1]), last.0, last.1)
  }

  /** Assigning two lists one after the other is assigning their concatenation. */
  lemma {:induction false} PutAllAppend<K, V>(d: Dict<K, V>, a: seq<(K, V)>, b: seq<(K, V)>)
    requires Valid(d)
    ensures PutAll(PutAll(d, a), b) == PutAll(d, a + b)
    decreases |b|
  {
    if b == [] {
      assert a + b == a;
    } else {
      PutAllAppend(d, a, b[..|b| - 1]);
      assert (a + b)[..|a + b| - 1] == a + b[..|b| - 1];
    }
  }

  /** A key is present after the assignments exactly when it was present before
      or was assigned. */
  lemma {:induction false} PutAllKeys<K, V>(d: Dict<K, V>, ps: seq<(K, V)>, k: K)
    requires Valid(d)
    ensures k in Keys(PutAll(d, ps)) <==> k in Keys(d) || k in PairKeys(ps)
    decreases |ps|
  {
    if ps != [] {
      var init, last := ps[..|ps| - 1], ps[|ps| - 1];
      PutAllKeys(d, init, k);
      PutKeys(PutAll(d, init), last.0, last.1, k);
      PairKeysSnoc(ps);
    }
  }

  /** The number of entries after assigning `ps` to an empty dictionary is at most
      `|ps|`, and equals it exactly when the keys of `ps` are pairwise distinct. */
  lemma {:induction false} PutAllSize<K, V>(ps: seq<(K, V)>)
    ensures Size(PutAll(Empty(), ps)) <= |ps|
    ensures Size(PutAll(Empty(), ps)) == |ps| <==> Distinct(PairKeys(ps))
    decreases |ps|
  {
    if ps != [] {
      var init := ps[..|ps| - 1];
      var k := ps[|ps| - 1].0;
      var d := PutAll(Empty(), init);
      PutAllSize(init);
      PutAllKeys(Empty(), init, k);
      PairKeysSnoc(ps);
      DistinctSnoc(PairKeys(init), k);
      PutEntries(d, k, ps[|ps| - 1].1);
    }
  }

  /** With pairwise distinct keys, the dictionary holds exactly the pairs, in order. */
  lemma {:induction false} PutAllDistinct<K, V>(ps: seq<(K, V)>)
    requires Distinct(PairKeys(ps))
    ensures PutAll(Empty(), ps).entries == ps
    decreases |ps|
  {
    if ps != [] {
      var init := ps[..|ps| - 1];
      var last := ps[|ps| - 1];
      PairKeysSnoc(ps);
      DistinctSnoc(PairKeys(init), last.0);
      PutAllDistinct(init);
      var d := PutAll(Empty(), init);
      assert Keys(d) == PairKeys(init);
      PutEntries(d, last.0, last.1);
      assert ps == init + [last];
    }
  }

  /** The value stored under `k` is the one of the last pair that assigns `k`. */
  lemma {:induction false} PutAllLastWins<K, V>(d: Dict<K, V>, ps: seq<(K, V)>, t: int)
    requires Valid(d)
    requires 0 <= t < |ps|
    requires forall u :: t < u < |ps| ==> ps[u].0 != ps[t].0
    ensures Get(PutAll(d, ps), ps[t].0) == Some(ps[t].1)
    decreases |ps|
  {
    if t < |ps| - 1 {
      PutAllLastWins(d, ps[..|ps| - 1], t);
      PutOther(PutAll(d, ps[..|ps| - 1]), ps[|ps| - 1].0, ps[|ps| - 1].1, ps[t].0);
    }
  }
}

=== FILE: pipeline.dfy ===
/** The analysis as `main` chains it between reading the files and writing the
    reports: `process_files`, then `get_paragraph_proximities` over the
    paragraph table, then `get_article_proximities` over the article table's
    paragraph counts. The embedding model is foreign: its output for the
    paragraph texts, in table order, is a parameter. The run stops with a
    failure when there is no input, when a file cannot be segmented, when two
    files share an article name or a label prefix, or when the embeddings do
    not match the paragraphs. */
module Pipeline {
  import opened Basics
  import opened OrderedDict
  import opened Corpus
  import opened Similarity
  import opened Aggregation

  datatype Report = Report(
    index: Index,
    paragraphMatrix: Matrix,
    closest: seq<seq<Neighbour>>,
    articleMatrix: Matrix)

  /** The files can be analysed: each segments, and their names and label
      prefixes are unique, so no table entry is overwritten. */
  predicate WellFormedCorpus(files: seq<SourceFile>) {
    SegmentAll(files).Ok? &&
    Distinct(Names(Paths(files))) && Distinct(Prefixes(Paths(files)))
  }

  /** One embedding per paragraph, all of the same dimension. */
  predicate EmbeddingsFit(files: seq<SourceFile>, embeddings: seq<Vector>)
    requires SegmentAll(files).Ok?
  {
    |embeddings| == Sum(Lengths(SegmentAll(files).value)) && Uniform(embeddings)
  }

  /** The tables are those `process_files` builds: the paragraph texts are the
      articles' paragraphs in reading order and the article counts are the
      articles' lengths. */
  predicate TablesAgree(files: seq<SourceFile>, index: Index)
    requires WellFormedCorpus(files)
  {
    var arts := SegmentAll(files).value;
    index == ProcessFiles(files).value &&
    Values(index.paragraphs) == Flatten(arts) &&
    Values(index.articles) == Lengths(arts)
  }

  /** The paragraph matrix is the symmetric matrix of inner products of the
      embeddings, and every paragraph has its neighbour list. */
  predicate ParagraphResults(labels: seq<string>, embeddings: seq<Vector>, m: Matrix, closest: seq<seq<Neighbour>>)
  {
    Uniform(embeddings) && IsProximityMatrix(m, embeddings) && Symmetric(m) &&
    |labels| == |embeddings| && |closest| == |embeddings| &&
    forall i :: 0 <= i < |embeddings| ==> closest[i] == Closest(NumClosestParagraphs, labels, m[i], i)
  }

  /** The article matrix is the symmetric matrix of block means over the
      partition of the paragraph matrix by the article lengths. */
  predicate ArticleResults(lens: seq<nat>, m: Matrix, a: Matrix)
  {
    Partition(lens, m) &&
    IsSquare(a, |lens|) &&
    forall i, j :: 0 <= i < |lens| && 0 <= j < |lens| ==>
      a[i][j] == ArticleEntry(lens, m, i, j) && a[i][j] == a[j][i]
  }

  /** What a successful run reports. */
  predicate Analysed(files: seq<SourceFile>, embeddings: seq<Vector>, rep: Report)
    requires WellFormedCorpus(files) && EmbeddingsFit(files, embeddings)
  {
    var arts := SegmentAll(files).value;
    TablesAgree(files, rep.index) &&
    ParagraphResults(Keys(rep.index.paragraphs), embeddings, rep.paragraphMatrix, rep.closest) &&
    |arts| == |files| &&
    ArticleResults(Lengths(arts), rep.paragraphMatrix, rep.articleMatrix)
  }

  method Run(files: seq<SourceFile>, embeddings: seq<Vector>) returns (r: Result<Report, Failure>)
    ensures files == [] <==> r == Err(NoInputFound)
    ensures r.Ok? <==> files != [] && WellFormedCorpus(files) && EmbeddingsFit(files, embeddings)
    ensures r.Err? && files != [] && !SegmentAll(files).Ok? ==> r.error == HeaderIndexError
    ensures r.Ok? ==> Analysed(files, embeddings, r.value)
  {
    if files == [] {
      return Err(NoInputFound);
    }
    var processed := ProcessFiles(files);
    if processed.Err? {
      return Err(processed.error);
    }
    if !Distinct(Names(Paths(files))) || !Distinct(Prefixes(Paths(files))) {
      return Err(DuplicateIdentifier);
    }
    var arts := SegmentAll(files).value;
    if |embeddings| != Sum(Lengths(arts)) || !Uniform(embeddings) {
      return Err(DimensionMismatch);
    }
    var rep := Analyse(files, embeddings);
    r := Ok(rep);
  }

  /** The successful path of `Run`. */
  method Analyse(files: seq<SourceFile>, embeddings: seq<Vector>) returns (rep: Report)
    requires WellFormedCorpus(files) && EmbeddingsFit(files, embeddings)
    ensures Analysed(files, embeddings, rep)
  {
    var arts := SegmentAll(files).value;
    var index := ProcessFiles(files).value;
    ParagraphCountIffDistinctPrefixes(files);
    ParagraphOrder(files);
    ArticleTable(files);
    SegmentedArticlesNonEmpty(files);
    var labels := Keys(index.paragraphs);
    var m, closest := ParagraphProximities(labels, embeddings, NumClosestParagraphs);
    ProximityMatrixSymmetric(m, embeddings);
    var lens := Values(index.articles);
    assert lens == Lengths(arts);
    assert Partition(lens, m);
    var a := ArticleProximities(lens, m);
    forall i, j | 0 <= i < |files| && 0 <= j < |files|
      ensures a[i][j] == a[j][i]
    {
      ArticleMatrixSymmetric(lens, m, i, j);
    }
    assert TablesAgree(files, index);
    assert ParagraphResults(labels, embeddings, m, closest);
    assert ArticleResults(lens, m, a);
    rep := Report(index, m, closest, a);
  }

  /** In a successful run every neighbour list names only other paragraphs of
      the table, each with its proximity, never the paragraph itself, and has
      `min(5, P - 1)` entries. */
  lemma NeighbourListsWellFormed(index: Index, m: Matrix, closest: seq<seq<Neighbour>>, i: nat)
    requires Valid(index.paragraphs)
    requires |m| == Size(index.paragraphs) && IsSquare(m, |m|) && i < |m|
    requires |closest| == |m| && closest[i] == Closest(NumClosestParagraphs, Keys(index.paragraphs), m[i], i)
    ensures |closest[i]| == Min(5, Size(index.paragraphs) - 1)
    ensures forall e :: e in closest[i] ==>
      e.key in Keys(index.paragraphs) && e.key != Keys(index.paragraphs)[i] && e.score == m[i][e.column]
  {
    ClosestEntries(NumClosestParagraphs, Keys(index.paragraphs), m[i], i);
  }
}

=== FILE: pystr.dfy ===
/** The few Python string operations the analysis relies on: `str.find`,
    `str.split(sep)`, `sep.join(parts)`, slicing with negative and out-of-range
    bounds, ASCII `isdigit` on one character and `str(n)` for a natural number. */
module PyStr {
  import opened Basics

  /** `c.isdigit()`, restricted to the ASCII digits. */
  predicate IsDigit(c: char)
    ensures IsDigit(c) <==> c in "0123456789"
  {
    '0' <= c <= '9'
  }

  /** `sep` occurs in `s` starting at position `i`. */
  predicate OccursAt(s: string, sep: string, i: nat) {
    i + |sep| <= |s| && s[i..i + |sep|] == sep
  }

  /** `sep` occurs nowhere in `s`. */
  predicate Free(s: string, sep: string) {
    forall i: nat :: i <= |s| ==> !OccursAt(s, sep, i)
  }

  /** `s.find(sep, start)`: the leftmost occurrence at or after `start`. */
  function FindFrom(s: string, sep: string, start: nat): (r: Option<nat>)
    requires |sep| > 0
    ensures r.Some? ==> start <= r.value && OccursAt(s, sep, r.value)
    ensures r.Some? ==> forall i: nat :: start <= i < r.value ==> !OccursAt(s, sep, i)
    ensures r.None? <==> forall i: nat :: start <= i ==> !OccursAt(s, sep, i)
    decreases |s| - start
  {
    if start + |sep| > |s| then None
    else if OccursAt(s, sep, start) then Some(start)
    else FindFrom(s, sep, start + 1)
  }

  lemma FindFirst(s: string, sep: string, i: nat)
    requires |sep| > 0 && OccursAt(s, sep, i)
    requires forall j: nat :: j < i ==> !OccursAt(s, sep, j)
    ensures FindFrom(s, sep, 0) == Some(i)
  {
  }

  lemma FreeWithoutFirstChar(s: string, sep: string)
    requires |sep| > 0 && sep[0] !in s
    ensures Free(s, sep)
  {
    forall i: nat | i <= |s|
      ensures !OccursAt(s, sep, i)
    {
      if i + |sep| <= |s| {
        assert s[i..i + |sep|][0] == s[i];
        assert s[i] in s;
      }
    }
  }

  /** `sep.join(parts)`: the parts in order, with one separator between
      neighbours. */
  function Join(sep: string, parts: seq<string>): (r: string)
    ensures |parts| >= 1 ==> |parts[0]| <= |r| && r[..|parts[0]|] == parts[0]
    ensures |parts| >= 2 ==> |parts[0]| + |sep| <= |r| && r[|parts[0]|..|parts[0]| + |sep|] == sep
    decreases |parts|
  {
    if |parts| == 0 then ""
    else if |parts| == 1 then parts[0]
    else parts[0] + sep + Join(sep, parts[1..])
  }

  /** The joined text is the first part followed by every later part with the
      separator put in front of it. */
  lemma {:induction false} JoinFlatten(sep: string, parts: seq<string>)
    requires |parts| >= 1
    ensures Join(sep, parts) == parts[0] + Flatten(Prefixed(sep, parts[1..]))
    decreases |parts|
  {
    if |parts| == 1 {
      assert Prefixed(sep, parts[1..]) == [];
    } else {
      var later := Prefixed(sep, parts[2..]);
      JoinFlatten(sep, parts[1..]);
      assert Join(sep, parts[1..]) == parts[1] + Flatten(later) by {
        assert parts[1..][1..] == parts[2..];
      }
      assert Prefixed(sep, parts[1..]) == [sep + parts[1]] + later by {
        assert parts[1..][1..] == parts[2..];
      }
      FlattenCons(sep + parts[1], later);
      Regroup(parts[0], sep, parts[1], Flatten(later));
    }
  }

  /** Every part preceded by the separator. */
  function Prefixed(sep: string, parts: seq<string>): (r: seq<string>)
    ensures |r| == |parts|
    ensures forall i :: 0 <= i < |parts| ==> r[i] == sep + parts[i]
  {
    seq(|parts|, i requires 0 <= i < |parts| => sep + parts[i])
  }

  lemma Regroup(a: string, b: string, c: string, d: string)
    ensures a + b + (c + d) == a + ((b + c) + d)
  {
  }

  /** Joining is the same read from the back: the last part follows the join
      of the others and one separator. */
  lemma JoinSnoc(sep: string, parts: seq<string>)
    requires |parts| >= 2
    ensures Join(sep, parts) == Join(sep, parts[..|parts| - 1]) + sep + parts[|parts| - 1]
  {
    var n := |parts| - 1;
    var all := Prefixed(sep, parts[1..]);
    var front := Prefixed(sep, parts[..n][1..]);
    JoinFlatten(sep, parts);
    JoinFlatten(sep, parts[..n]);
    assert all[..n - 1] == front;
    assert Flatten(all) == Flatten(front) + (sep + parts[n]);
    Reassemble(parts[0], Flatten(front), sep, parts[n]);
  }

  lemma Reassemble(a: string, b: string, c: string, d: string)
    ensures a + (b + (c + d)) == (a + b) + c + d
  {
  }

  /** One more part adds its own length and one more separator. */
  lemma SeparatorCount(whole: nat, init: nat, before: nat, last: nat, m: nat, n: nat, k: nat)
    requires m == n >= 1 && init == before + (m - 1) * k && whole == init + k + last
    ensures whole == (before + last) + n * k
  {
  }

  /** The joined text is as long as the parts together plus one separator
      between each pair of neighbours. */
  lemma {:induction false} JoinLength(sep: string, parts: seq<string>)
    requires |parts| >= 1
    ensures |Join(sep, parts)| == Sum(Lengths(parts)) + (|parts| - 1) * |sep|
    decreases |parts|
  {
    var n := |parts| - 1;
    assert Lengths(parts)[..n] == Lengths(parts[..n]);
    assert Sum(Lengths(parts)) == Sum(Lengths(parts[..n])) + |parts[n]|;
    if n >= 1 {
      var init := Join(sep, parts[..n]);
      JoinSnoc(sep, parts);
      assert |Join(sep, parts)| == |init| + |sep| + |parts[n]|;
      JoinLength(sep, parts[..n]);
      SeparatorCount(|Join(sep, parts)|, |init|, Sum(Lengths(parts[..n])), |parts[n]|, |parts[..n]|, |parts| - 1, |sep|);
    }
  }

  lemma PrefixBeforeFirstIsFree(s: string, sep: string, i: nat)
    requires |sep| > 0 && i <= |s|
    requires forall j: nat :: j < i ==> !OccursAt(s, sep, j)
    ensures Free(s[..i], sep)
  {
    forall j: nat | OccursAt(s[..i], sep, j)
      ensures false
    {
      assert s[..i][j..j + |sep|] == s[j..j + |sep|];
      assert OccursAt(s, sep, j);
    }
  }

  /** `s.split(sep)` for a non-empty separator: cut at the leftmost occurrence,
      then continue after it, so occurrences never overlap. */
  function Split(s: string, sep: string): (r: seq<string>)
    requires |sep| > 0
    ensures |r| >= 1
    ensures Join(sep, r) == s
    ensures forall k :: 0 <= k < |r| ==> Free(r[k], sep)
    ensures |r| == 1 <==> Free(s, sep)
    ensures forall k :: 0 <= k < |r| - 1 ==> CutAtFirst(r[k], sep)
    decreases |s|
  {
    match FindFrom(s, sep, 0)
    case None => [s]
    case Some(i) =>
      var rest := Split(s[i + |sep|..], sep);
      SplitStep(s, sep, i, rest);
      [s[..i]] + rest
  }

  /** A piece followed by the separator contains no earlier occurrence of the
      separator: the cut after the piece is at the leftmost occurrence. */
  predicate CutAtFirst(piece: string, sep: string) {
    forall j: nat :: j < |piece| ==> !OccursAt(piece + sep, sep, j)
  }

  lemma FirstCutIsLeftmost(s: string, sep: string, i: nat)
    requires OccursAt(s, sep, i)
    requires forall j: nat :: j < i ==> !OccursAt(s, sep, j)
    ensures CutAtFirst(s[..i], sep)
  {
    var t := s[..i] + sep;
    assert t == s[..i + |sep|];
    forall j: nat | j < i
      ensures !OccursAt(t, sep, j)
    {
      if j + |sep| <= |t| {
        assert t[j..j + |sep|] == s[j..j + |sep|];
        assert !OccursAt(s, sep, j);
      }
    }
  }

  /** One step of `Split`: the piece before the first occurrence, then the
      pieces of what follows it. */
  lemma SplitStep(s: string, sep: string, i: nat, rest: seq<string>)
    requires |sep| > 0 && OccursAt(s, sep, i)
    requires forall j: nat :: j < i ==> !OccursAt(s, sep, j)
    requires |rest| >= 1 && Join(sep, rest) == s[i + |sep|..]
    requires forall k :: 0 <= k < |rest| ==> Free(rest[k], sep)
    requires forall k :: 0 <= k < |rest| - 1 ==> CutAtFirst(rest[k], sep)
    ensures Join(sep, [s[..i]] + rest) == s
    ensures forall k :: 0 <= k < |rest| + 1 ==> Free(([s[..i]] + rest)[k], sep)
    ensures forall k :: 0 <= k < |rest| ==> CutAtFirst(([s[..i]] + rest)[k], sep)
    ensures !Free(s, sep)
  {
    var pieces := [s[..i]] + rest;
    PrefixBeforeFirstIsFree(s, sep, i);
    FirstCutIsLeftmost(s, sep, i);
    forall k | 0 <= k < |rest| + 1
      ensures Free(pieces[k], sep)
      ensures k < |rest| ==> CutAtFirst(pieces[k], sep)
    {
      if k > 0 {
        assert pieces[k] == rest[k - 1];
      }
    }
    JoinCons(sep, s[..i], rest);
    CutThree(s, i, i + |sep|);
  }

  lemma CutThree(s: string, i: nat, j: nat)
    requires i <= j <= |s|
    ensures s == s[..i] + s[i..j] + s[j..]
  {
  }

  lemma SplitFree(s: string, sep: string)
    requires |sep| > 0 && Free(s, sep)
    ensures Split(s, sep) == [s]
  {
  }

  /** Splitting at an occurrence with no earlier one: the first piece is what
      precedes it. */
  lemma SplitAtFirst(a: string, sep: string, b: string)
    requires |sep| > 0
    requires forall j: nat :: j < |a| ==> !OccursAt(a + sep + b, sep, j)
    ensures Split(a + sep + b, sep) == [a] + Split(b, sep)
  {
    var s := a + sep + b;
    assert s[|a|..|a| + |sep|] == sep;
    FindFirst(s, sep, |a|);
    assert s[..|a|] == a;
    assert s[|a| + |sep|..] == b;
  }

  /** Every character `c` of `s` replaced by the string `d`. */
  function Replace(s: string, c: char, d: char): (r: string)
    ensures |r| == |s|
  {
    seq(|s|, i requires 0 <= i < |s| => if s[i] == c then d else s[i])
  }

  lemma FreeOfChar(s: string, c: char)
    requires Free(s, [c])
    ensures c !in s
  {
    if c in s {
      var k :| 0 <= k < |s| && s[k] == c;
      assert s[k..k + 1] == [c];
      assert OccursAt(s, [c], k);
    }
  }

  lemma ReplaceAbsent(s: string, c: char, d: char)
    requires c !in s
    ensures Replace(s, c, d) == s
  {
  }

  lemma ReplaceAround(a: string, c: char, d: char, b: string)
    requires c !in a
    ensures Replace(a + [c] + b, c, d) == a + [d] + Replace(b, c, d)
  {
    var s := a + [c] + b;
    assert forall k :: 0 <= k < |a| ==> s[k] == a[k];
    assert forall k :: |a| + 1 <= k < |s| ==> s[k] == b[k - |a| - 1];
  }

  lemma JoinCons(sep: string, x: string, parts: seq<string>)
    requires |parts| >= 1
    ensures Join(sep, [x] + parts) == x + sep + Join(sep, parts)
  {
    assert ([x] + parts)[1..] == parts;
  }

  /** Splitting on a one-character separator and joining with another one-character
      string replaces the separator character everywhere. */
  lemma {:induction false} JoinSplitIsReplace(s: string, c: char, d: char)
    ensures Join([d], Split(s, [c])) == Replace(s, c, d)
    decreases |s|
  {
    match FindFrom(s, [c], 0)
    case None =>
      FreeOfChar(s, c);
      ReplaceAbsent(s, c, d);
    case Some(i) =>
      var rest := s[i + 1..];
      JoinSplitIsReplace(rest, c, d);
      PrefixBeforeFirstIsFree(s, [c], i);
      FreeOfChar(s[..i], c);
      var parts := Split(rest, [c]);
      assert Split(s, [c]) == [s[..i]] + parts;
      JoinCons([d], s[..i], parts);
      assert s[i..i + 1] == [c];
      assert s == s[..i] + [c] + rest;
      ReplaceAround(s[..i], c, d, rest);
  }

  /** A one-character separator splits into more than one piece exactly when the
      character is present. */
  lemma SplitOnCharIsMultiple(s: string, c: char)
    ensures |Split(s, [c])| > 1 <==> c in s
  {
    if c in s {
      var k :| 0 <= k < |s| && s[k] == c;
      assert s[k..k + 1] == [c];
      assert OccursAt(s, [c], k);
    } else {
      forall i: nat
        ensures !OccursAt(s, [c], i)
      {
        if i + 1 <= |s| {
          assert s[i..i + 1] == [s[i]];
          assert s[i] != c;
        }
      }
    }
  }

  // ----- str(n) -----

  function DigitChar(d: nat): (c: char)
    requires d < 10
    ensures IsDigit(c)
  {
    (48 + d) as char
  }

  function DigitValue(c: char): int {
    c as int - 48
  }

  /** The value of a string of decimal digits, most significant first. */
  function ParseDecimal(s: string): int
    decreases |s|
  {
    if s == [] then 0 else ParseDecimal(s[..|s| - 1]) * 10 + DigitValue(s[|s| - 1])
  }

  /** `str(n)`: decimal digits of `n`; reading them back gives `n`. */
  function NatToString(n: nat): (r: string)
    ensures |r| >= 1
    ensures forall k :: 0 <= k < |r| ==> IsDigit(r[k])
    ensures ParseDecimal(r) == n
    ensures r[0] == '0' ==> n == 0
    decreases n
  {
    if n < 10 then [DigitChar(n)]
    else
      var r := NatToString(n / 10) + [DigitChar(n % 10)];
      assert r[..|r| - 1] == NatToString(n / 10);
      assert r[0] == NatToString(n / 10)[0];
      r
  }

  lemma NatToStringInjective(a: nat, b: nat)
    ensures NatToString(a) == NatToString(b) <==> a == b
  {
  }

  // ----- slicing -----

  /** A slice bound normalised as Python does: negative counts from the end,
      and the result is clamped to `[0, n]`. */
  function ClampIndex(i: int, n: nat): (r: nat)
    ensures r <= n
    ensures i >= 0 ==> r == Min(i, n)
    ensures i < 0 ==> r == Max(n + i, 0)
  {
    if i < 0 then (if i + n < 0 then 0 else i + n)
    else if i > n then n
    else i
  }

  /** `s[start:stop]`: a contiguous part of `s`; bounds inside the string
      select exactly `s[start..stop]`, a negative bound counts from the end, and
      bounds out of range are clamped. */
  function Slice(s: string, start: int, stop: int): (r: string)
    ensures |r| <= |s|
    ensures 0 <= start <= stop <= |s| ==> r == s[start..stop]
    ensures 0 <= start <= |s| && -|s| <= stop < 0 && start <= |s| + stop ==> r == s[start..|s| + stop]
    ensures 0 <= start && stop - |s| >= 0 && start <= |s| ==> r == s[start..]
    ensures (start >= |s| || stop <= -|s| || (0 <= stop <= start)) ==> r == ""
    ensures 0 <= start && -|s| <= stop < 0 && start >= |s| + stop ==> r == ""
  {
    var lo := ClampIndex(start, |s|);
    var hi := ClampIndex(stop, |s|);
    if lo < hi then s[lo..hi] else ""
  }
}

=== FILE: segmenter.dfy ===
/** The article segmenter: raw article text to an ordered list of paragraphs.
    The text is cut into blocks at every blank line ("\n\n"), each block into
    lines ("\n"); a multi-line block whose first line starts with a digit is a
    numbered section and loses that header line; the remaining lines are joined
    with single spaces. The earlier revision keeps only the numbered blocks. */
module Segmenter {
  import opened Basics
  import opened PyStr

  function Blocks(text: string): seq<string> {
    Split(text, "\n\n")
  }

  function Lines(block: string): seq<string> {
    Split(block, "\n")
  }

  /** More than one line and the first line is empty: `first_line[0]` raises. */
  predicate Malformed(block: string) {
    var lines := Lines(block);
    |lines| > 1 && |lines[0]| == 0
  }

  /** More than one line and the first line starts with a digit. */
  predicate HasHeader(block: string) {
    var lines := Lines(block);
    |lines| > 1 && |lines[0]| > 0 && IsDigit(lines[0][0])
  }

  /** The lines after the first are the lines of the text after the first line break. */
  lemma LinesAfterFirst(block: string)
    requires '\n' in block
    ensures |Lines(block)[0]| < |block| && block[|Lines(block)[0]|] == '\n'
    ensures Lines(block)[1..] == Lines(block[|Lines(block)[0]| + 1..])
    ensures |Lines(block)[0]| > 0 ==> Lines(block)[0][0] == block[0]
  {
    SplitOnCharIsMultiple(block, '\n');
    match FindFrom(block, "\n", 0)
    case None =>
      assert false;
    case Some(i) =>
      assert block[i..i + 1] == "\n";
      assert Lines(block) == [block[..i]] + Lines(block[i + 1..]);
  }

  /** One block of the loop in `get_article`. */
  function Paragraph(block: string): (r: Result<string, Failure>)
    ensures r.Err? <==> Malformed(block)
    ensures r.Err? ==> r.error == HeaderIndexError
    ensures '\n' !in block ==> r == Ok(block)
    ensures r.Ok? && !HasHeader(block) ==> r.value == Replace(block, '\n', ' ')
    ensures r.Ok? && HasHeader(block) ==>
      r.value == Replace(block[|Lines(block)[0]| + 1..], '\n', ' ')
  {
    var lines := Lines(block);
    SplitOnCharIsMultiple(block, '\n');
    JoinSplitIsReplace(block, '\n', ' ');
    if |lines| > 1 then
      if |lines[0]| == 0 then Err(HeaderIndexError)
      else
        LinesAfterFirst(block);
        JoinSplitIsReplace(block[|lines[0]| + 1..], '\n', ' ');
        if IsDigit(lines[0][0]) then Ok(Join(" ", lines[1..])) else Ok(Join(" ", lines))
    else Ok(Join(" ", lines))
  }

  /** `Paragraph` of every block, in block order. */
  function BlockResults(blocks: seq<string>): (r: seq<Result<string, Failure>>)
    ensures |r| == |blocks|
    ensures forall k :: 0 <= k < |blocks| ==> r[k] == Paragraph(blocks[k])
  {
    seq(|blocks|, k requires 0 <= k < |blocks| => Paragraph(blocks[k]))
  }

  /** The paragraphs of a list of blocks, one per block, or the first failure. */
  function ParagraphsOf(blocks: seq<string>): (r: Result<seq<string>, Failure>)
    ensures r.Ok? <==> forall k :: 0 <= k < |blocks| ==> !Malformed(blocks[k])
    ensures r.Err? ==> r.error == HeaderIndexError
    ensures r.Ok? ==> |r.value| == |blocks|
    ensures r.Ok? ==> forall k :: 0 <= k < |blocks| ==> Paragraph(blocks[k]) == Ok(r.value[k])
  {
    CollectOk(BlockResults(blocks))
  }

  /** `get_article` after the file has been read. */
  function GetArticle(text: string): (r: Result<seq<string>, Failure>)
    ensures r.Ok? <==> forall k :: 0 <= k < |Blocks(text)| ==> !Malformed(Blocks(text)[k])
    ensures r.Err? ==> r.error == HeaderIndexError
    ensures r.Ok? ==> |r.value| == |Blocks(text)| >= 1
    ensures r.Ok? ==> forall k :: 0 <= k < |r.value| ==> Paragraph(Blocks(text)[k]) == Ok(r.value[k])
  {
    ParagraphsOf(Blocks(text))
  }

  lemma NoneMalformedCons(blocks: seq<string>)
    requires blocks != []
    ensures (forall k :: 0 <= k < |blocks| ==> !Malformed(blocks[k])) <==>
      !Malformed(blocks[0]) && forall k :: 0 <= k < |blocks[1..]| ==> !Malformed(blocks[1..][k])
  {
    if !Malformed(blocks[0]) && forall k :: 0 <= k < |blocks[1..]| ==> !Malformed(blocks[1..][k]) {
      forall k | 0 <= k < |blocks| ensures !Malformed(blocks[k]) {
        if k > 0 {
          assert blocks[k] == blocks[1..][k - 1];
        }
      }
    }
  }

  /** The loop of `split_file_into_list`: only numbered blocks survive. The
      test `first_line[0].isdigit()` raises on a multi-line block with an empty
      first line (`Malformed`) and keeps a block exactly when `HasHeader`. */
  function HeaderParagraphsOf(blocks: seq<string>): (r: Result<seq<string>, Failure>)
    ensures r.Ok? <==> forall k :: 0 <= k < |blocks| ==> !Malformed(blocks[k])
    ensures r.Err? ==> r.error == HeaderIndexError
    ensures r.Ok? ==> |r.value| <= |blocks|
    decreases |blocks|
  {
    if blocks == [] then Ok([])
    else
      NoneMalformedCons(blocks);
      if Malformed(blocks[0]) then Err(HeaderIndexError)
      else
        var rest := HeaderParagraphsOf(blocks[1..]);
        if rest.Err? then rest
        else if HasHeader(blocks[0]) then Ok([Join(" ", Lines(blocks[0])[1..])] + rest.value)
        else rest
  }

  /** `split_file_into_list` after the file has been read. */
  function SplitFileIntoList(text: string): (r: Result<seq<string>, Failure>)
    ensures r.Ok? <==> forall k :: 0 <= k < |Blocks(text)| ==> !Malformed(Blocks(text)[k])
    ensures r.Ok? ==> |r.value| <= |Blocks(text)|
  {
    HeaderParagraphsOf(Blocks(text))
  }

  /** The entries of `paras` whose block has a header, in order. */
  function AtHeaders(paras: seq<string>, blocks: seq<string>): (r: seq<string>)
    requires |paras| == |blocks|
    decreases |blocks|
  {
    if blocks == [] then []
    else (if HasHeader(blocks[0]) then [paras[0]] else []) + AtHeaders(paras[1..], blocks[1..])
  }

  /** The earlier segmenter fails exactly when the later one does, and otherwise
      returns the later one's paragraphs of the numbered blocks, in order. */
  lemma {:induction false} OldSegmenterKeepsHeaderParagraphs(blocks: seq<string>)
    ensures HeaderParagraphsOf(blocks).Ok? <==> ParagraphsOf(blocks).Ok?
    ensures ParagraphsOf(blocks).Ok? ==>
      HeaderParagraphsOf(blocks).value == AtHeaders(ParagraphsOf(blocks).value, blocks)
    decreases |blocks|
  {
    if blocks != [] && ParagraphsOf(blocks).Ok? {
      OldSegmenterKeepsHeaderParagraphs(blocks[1..]);
      var ps := ParagraphsOf(blocks).value;
      assert ps[1..] == ParagraphsOf(blocks[1..]).value;
    }
  }

  lemma OldSegmenterMatchesNew(text: string)
    ensures SplitFileIntoList(text).Ok? <==> GetArticle(text).Ok?
    ensures GetArticle(text).Ok? ==>
      SplitFileIntoList(text).value == AtHeaders(GetArticle(text).value, Blocks(text))
  {
    OldSegmenterKeepsHeaderParagraphs(Blocks(text));
  }

  /** Python's splitting never merges a third line break into the separator:
      it stays at the front of the next block. */
  lemma SplitExamples()
    ensures Split("a\n\n\nb", "\n\n") == ["a", "\nb"]
    ensures Split("", "\n\n") == [""]
  {
    var rest := "\nb";
    var joined := "a" + "\n\n" + rest;
    assert |joined| == 5;
    assert joined[0] == 'a' && joined[1] == '\n' && joined[2] == '\n' && joined[3] == '\n' && joined[4] == 'b';
    assert "a\n\n\nb" == joined;
    assert !OccursAt("a\n\n\nb", "\n\n", 0) by {
      assert "a\n\n\nb"[0..2][0] == 'a';
    }
    SplitAtFirst("a", "\n\n", rest);
    assert !OccursAt(rest, "\n\n", 0) by {
      assert rest[0..2][1] == 'b';
    }
    assert Free(rest, "\n\n");
    SplitFree(rest, "\n\n");
    FreeWithoutFirstChar("", "\n\n");
    SplitFree("", "\n\n");
  }

  lemma ExampleBlocks(header: string, body: string, last: string)
    requires header == "1. Intro" && body == "Hello world" && last == "Goodbye"
    ensures Blocks(header + "\n" + body + "\n\n" + last) == [header + "\n" + body, last]
  {
    var first := header + "\n" + body;
    var text := first + "\n\n" + last;
    assert '\n' !in header && '\n' !in body && '\n' !in last;
    forall j: nat | j < |first|
      ensures !OccursAt(text, "\n\n", j)
    {
      assert text[j..j + 2][0] == text[j] && text[j..j + 2][1] == text[j + 1];
      if j < |header| {
        assert text[j] == header[j];
        assert header[j] in header;
      } else if j == |header| {
        assert text[j + 1] == body[0];
      } else {
        assert text[j] == body[j - |header| - 1];
        assert body[j - |header| - 1] in body;
      }
    }
    SplitAtFirst(first, "\n\n", last);
    FreeWithoutFirstChar(last, "\n\n");
    SplitFree(last, "\n\n");
  }

  lemma ExampleLines(header: string, body: string)
    requires header == "1. Intro" && body == "Hello world"
    ensures Lines(header + "\n" + body) == [header, body]
  {
    var first := header + "\n" + body;
    assert '\n' !in header && '\n' !in body;
    forall j: nat | j < |header|
      ensures !OccursAt(first, "\n", j)
    {
      assert first[j..j + 1] == [header[j]];
      assert header[j] in header;
    }
    SplitAtFirst(header, "\n", body);
    FreeWithoutFirstChar(body, "\n");
    SplitFree(body, "\n");
  }

  lemma ExampleFirstParagraph(header: string, body: string)
    requires header == "1. Intro" && body == "Hello world"
    ensures Paragraph(header + "\n" + body) == Ok(body)
  {
    ExampleLines(header, body);
    var lines := Lines(header + "\n" + body);
    assert IsDigit(lines[0][0]);
    assert lines[1..] == [body];
  }

  lemma TwoBlockArticle(first: string, last: string, body: string)
    requires Blocks(first + "\n\n" + last) == [first, last]
    requires Paragraph(first) == Ok(body)
    requires '\n' !in last
    ensures GetArticle(first + "\n\n" + last) == Ok([body, last])
  {
    var blocks := [first, last];
    assert Paragraph(last) == Ok(last);
    var r := ParagraphsOf(blocks);
    assert !Malformed(blocks[0]) && !Malformed(blocks[1]);
    assert r.Ok?;
    assert Paragraph(blocks[0]) == Ok(r.value[0]) && Paragraph(blocks[1]) == Ok(r.value[1]);
    assert r.value == [body, last];
  }

  /** A numbered first block loses its header; a one-line block is kept whole. */
  lemma SegmentExample(text: string)
    requires text == "1. Intro\nHello world\n\nGoodbye"
    ensures GetArticle(text) == Ok(["Hello world", "Goodbye"])
  {
    var header, body, last := "1. Intro", "Hello world", "Goodbye";
    var first := header + "\n" + body;
    assert text == first + "\n\n" + last;
    assert '\n' !in last;
    ExampleBlocks(header, body, last);
    ExampleFirstParagraph(header, body);
    TwoBlockArticle(first, last, body);
  }
}

=== FILE: similarity.dfy ===
/** The similarity engine of `get_paragraph_proximities`: the P×P matrix of
    inner products of the paragraph embeddings, and for every paragraph its
    closest other paragraphs as `heapq.nlargest(K, candidates, key=score)`.
    Python documents `nlargest` as `sorted(candidates, key=score,
    reverse=True)[:K]`, a stable sort: on equal scores the candidate seen first,
    that is the one with the lower column, comes first. */
module Similarity {
  import opened Basics

  /** `NUM_CLOSEST_PARAGRAPHS`. */
  const NumClosestParagraphs: nat := 5

  type Vector = seq<real>
  type Matrix = seq<seq<real>>

  /** All embeddings have the same dimension. */
  predicate Uniform(vs: seq<Vector>) {
    forall i :: 0 <= i < |vs| ==> |vs[i]| == |vs[0]|
  }

  /** `np.inner(u, v)` for two vectors of equal dimension: the sum of the
      products of their components. A vector's inner product with itself is
      its squared length, never negative. */
  function Inner(u: Vector, v: Vector): (r: real)
    requires |u| == |v|
    ensures u == v ==> r >= 0.0
    decreases |u|
  {
    if u == [] then 0.0
    else
      var x, y := u[|u| - 1], v[|v| - 1];
      assert u == v ==> x * y >= 0.0;
      Inner(u[..|u| - 1], v[..|v| - 1]) + x * y
  }

  lemma {:induction false} InnerSymmetric(u: Vector, v: Vector)
    requires |u| == |v|
    ensures Inner(u, v) == Inner(v, u)
    decreases |u|
  {
    if u != [] {
      InnerSymmetric(u[..|u| - 1], v[..|v| - 1]);
    }
  }

  predicate IsSquare(m: Matrix, n: nat) {
    |m| == n && forall i :: 0 <= i < n ==> |m[i]| == n
  }

  predicate Symmetric(m: Matrix)
    requires IsSquare(m, |m|)
  {
    forall i, j :: 0 <= i < |m| && 0 <= j < |m| ==> m[i][j] == m[j][i]
  }

  /** `m[i][j]` is the inner product of embeddings i and j. */
  predicate IsProximityMatrix(m: Matrix, es: seq<Vector>)
    requires Uniform(es)
  {
    IsSquare(m, |es|) &&
    forall i, j :: 0 <= i < |es| && 0 <= j < |es| ==> m[i][j] == Inner(es[i], es[j])
  }

  /** The matrix of inner products is symmetric, and its diagonal holds each
      embedding's non-negative self inner product. */
  lemma ProximityMatrixSymmetric(m: Matrix, es: seq<Vector>)
    requires Uniform(es) && IsProximityMatrix(m, es)
    ensures Symmetric(m)
    ensures forall i :: 0 <= i < |es| ==> m[i][i] == Inner(es[i], es[i]) >= 0.0
  {
    forall i, j | 0 <= i < |es| && 0 <= j < |es|
      ensures m[i][j] == m[j][i]
    {
      InnerSymmetric(es[i], es[j]);
    }
  }

  // ----- neighbour lists -----

  /** One `(label, proximity)` pair of a neighbour list, with the column it came from. */
  datatype Neighbour = Neighbour(column: nat, key: string, score: real)

  /** `a` ranks before `b` in `sorted(key=score, reverse=True)` over candidates
      listed by ascending column. */
  predicate Precedes(a: Neighbour, b: Neighbour) {
    a.score > b.score || (a.score == b.score && a.column < b.column)
  }

  predicate Ranked(s: seq<Neighbour>) {
    forall i, j :: 0 <= i < j < |s| ==> Precedes(s[i], s[j])
  }

  predicate DistinctColumns(s: seq<Neighbour>) {
    forall i, j :: 0 <= i < j < |s| ==> s[i].column != s[j].column
  }

  /** `target_proximities` after the inner loop has seen columns `[0, n)` of row `i`:
      every column but `i`, in ascending order. */
  function Candidates(labels: seq<string>, row: seq<real>, i: nat, n: nat): (r: seq<Neighbour>)
    requires n <= |labels| && n <= |row|
    ensures |r| == if i < n then n - 1 else n
    ensures forall a, b :: 0 <= a < b < |r| ==> r[a].column < r[b].column
    ensures forall a :: 0 <= a < |r| ==>
      r[a].column < n && r[a].column != i &&
      r[a].key == labels[r[a].column] && r[a].score == row[r[a].column]
    decreases n
  {
    if n == 0 then []
    else
      Candidates(labels, row, i, n - 1)
        + (if n - 1 != i then [Neighbour(n - 1, labels[n - 1], row[n - 1])] else [])
  }

  /** Insert `x` into a ranked list after every element that ranks before it. */
  function Insert(x: Neighbour, l: seq<Neighbour>): (r: seq<Neighbour>)
    ensures multiset(r) == multiset(l) + multiset{x}
    decreases |l|
  {
    if l == [] || Precedes(x, l[0]) then
      [x] + l
    else
      assert l == [l[0]] + l[1..];
      [l[0]] + Insert(x, l[1..])
  }

  lemma {:induction false} InsertRanked(x: Neighbour, l: seq<Neighbour>)
    requires Ranked(l)
    requires forall e :: e in l ==> e.column != x.column
    ensures Ranked(Insert(x, l))
    decreases |l|
  {
    if l != [] && !Precedes(x, l[0]) {
      var t := Insert(x, l[1..]);
      InsertRanked(x, l[1..]);
      assert Precedes(l[0], x);
      forall e | e in l[1..]
        ensures Precedes(l[0], e)
      {
        var j :| 0 <= j < |l[1..]| && l[1..][j] == e;
        assert l[j + 1] == e;
      }
      InsertBelow(l[0], x, l[1..]);
      var r := [l[0]] + t;
      forall a, b | 0 <= a < b < |r|
        ensures Precedes(r[a], r[b])
      {
        if a == 0 {
          assert r[b] == t[b - 1];
          assert t[b - 1] in t;
        } else {
          assert r[a] == t[a - 1] && r[b] == t[b - 1];
        }
      }
    }
  }

  /** Inserting an element that ranks after `h` into a list whose elements all
      rank after `h` keeps that so. */
  lemma InsertBelow(h: Neighbour, x: Neighbour, l: seq<Neighbour>)
    requires Precedes(h, x)
    requires forall e :: e in l ==> Precedes(h, e)
    ensures forall e :: e in Insert(x, l) ==> Precedes(h, e)
  {
    forall e | e in Insert(x, l)
      ensures Precedes(h, e)
    {
      assert e in multiset(Insert(x, l));
      if e != x {
        assert e in multiset(l);
      }
    }
  }

  /** `sorted(candidates, key=score, reverse=True)` on candidates listed by
      ascending column, the only order they are built in: ties then go to the
      lower column, which is also the order Python's stable sort keeps. */
  function SortDesc(cs: seq<Neighbour>): (r: seq<Neighbour>)
    ensures multiset(r) == multiset(cs)
    ensures |r| == |cs|
    ensures DistinctColumns(cs) ==> Ranked(r)
    decreases |cs|
  {
    if cs == [] then []
    else
      var rest := SortDesc(cs[1..]);
      assert cs == [cs[0]] + cs[1..];
      SortDescRanked(cs, rest);
      Insert(cs[0], rest)
  }

  lemma SortDescRanked(cs: seq<Neighbour>, rest: seq<Neighbour>)
    requires cs != [] && multiset(rest) == multiset(cs[1..])
    requires DistinctColumns(cs[1..]) ==> Ranked(rest)
    ensures DistinctColumns(cs) ==> Ranked(Insert(cs[0], rest))
  {
    if DistinctColumns(cs) {
      assert DistinctColumns(cs[1..]) by {
        forall i, j | 0 <= i < j < |cs[1..]|
          ensures cs[1..][i].column != cs[1..][j].column
        {
          assert cs[1..][i] == cs[i + 1] && cs[1..][j] == cs[j + 1];
        }
      }
      forall e | e in rest
        ensures e.column != cs[0].column
      {
        assert e in multiset(cs[1..]);
        var j :| 0 <= j < |cs[1..]| && cs[1..][j] == e;
        assert cs[j + 1] == e;
      }
      InsertRanked(cs[0], rest);
    }
  }

  /** Whatever a prefix of a ranked list leaves out ranks after everything it keeps. */
  lemma RankedPrefixIsTop(sorted: seq<Neighbour>, n: nat)
    requires n <= |sorted|
    ensures Ranked(sorted) ==>
      forall c, e :: c in sorted && c !in sorted[..n] && e in sorted[..n] ==> Precedes(e, c)
  {
    if Ranked(sorted) {
      forall c, e | c in sorted && c !in sorted[..n] && e in sorted[..n]
        ensures Precedes(e, c)
      {
        forall p | 0 <= p < n
          ensures sorted[p] != c
        {
          assert sorted[..n][p] == sorted[p];
        }
        var p :| 0 <= p < |sorted| && sorted[p] == c;
        var q :| 0 <= q < n && sorted[..n][q] == e;
        assert sorted[q] == e;
      }
    }
  }

  /** `heapq.nlargest(k, candidates, key=score)` on candidates listed by
      ascending column. */
  function NLargest(k: nat, cs: seq<Neighbour>): (r: seq<Neighbour>)
    ensures |r| == Min(k, |cs|)
    ensures forall e :: e in r ==> e in cs
    ensures DistinctColumns(cs) ==> Ranked(r)
    ensures DistinctColumns(cs) ==>
      forall c, e :: c in cs && c !in r && e in r ==> Precedes(e, c)
  {
    var sorted := SortDesc(cs);
    var r := sorted[..Min(k, |cs|)];
    assert forall e :: e in r ==> e in multiset(sorted);
    assert forall c :: c in cs ==> c in multiset(sorted);
    RankedPrefixIsTop(sorted, Min(k, |cs|));
    r
  }

  /** The neighbour list of paragraph `i` (`closest_paragraphs[labels[i]]`):
      `min(K, P-1)` entries, ranked by non-increasing score with ties in column
      order. */
  function Closest(k: nat, labels: seq<string>, row: seq<real>, i: nat): (r: seq<Neighbour>)
    requires |row| == |labels| && i < |labels|
    ensures |r| == Min(k, |labels| - 1)
    ensures forall a, b :: 0 <= a < b < |r| ==>
      r[a].score >= r[b].score && (r[a].score == r[b].score ==> r[a].column < r[b].column)
  {
    var cs := Candidates(labels, row, i, |labels|);
    NLargest(k, cs)
  }

  /** Every entry of a neighbour list is another paragraph, reported with its
      label and its matrix entry; with unique labels the list never names the
      paragraph itself. */
  lemma ClosestEntries(k: nat, labels: seq<string>, row: seq<real>, i: nat)
    requires |row| == |labels| && i < |labels|
    ensures forall e :: e in Closest(k, labels, row, i) ==>
      e.column < |labels| && e.column != i && e.key == labels[e.column] && e.score == row[e.column]
    ensures Distinct(labels) ==> forall e :: e in Closest(k, labels, row, i) ==> e.key != labels[i]
  {
    var cs := Candidates(labels, row, i, |labels|);
    var r := Closest(k, labels, row, i);
    forall e | e in r
      ensures e.column < |labels| && e.column != i && e.key == labels[e.column] && e.score == row[e.column]
    {
      var a :| 0 <= a < |cs| && cs[a] == e;
    }
  }

  /** A paragraph left out of the neighbour list scores no higher than any
      paragraph kept: the list is a top-K selection. */
  lemma ClosestIsTop(k: nat, labels: seq<string>, row: seq<real>, i: nat)
    requires |row| == |labels| && i < |labels|
    ensures forall j :: 0 <= j < |labels| && j != i && Neighbour(j, labels[j], row[j]) !in Closest(k, labels, row, i) ==>
      forall e :: e in Closest(k, labels, row, i) ==> e.score >= row[j]
  {
    var cs := Candidates(labels, row, i, |labels|);
    var r := Closest(k, labels, row, i);
    assert DistinctColumns(cs);
    assert forall c, e :: c in cs && c !in r && e in r ==> Precedes(e, c);
    forall j | 0 <= j < |labels| && j != i && Neighbour(j, labels[j], row[j]) !in r
      ensures forall e :: e in r ==> e.score >= row[j]
    {
      var c := Neighbour(j, labels[j], row[j]);
      CandidatesComplete(labels, row, i, |labels|, j);
      forall e | e in r
        ensures e.score >= row[j]
      {
        assert Precedes(e, c);
      }
    }
  }

  /** Every column other than `i` below `n` is a candidate. */
  lemma {:induction false} CandidatesComplete(labels: seq<string>, row: seq<real>, i: nat, n: nat, j: nat)
    requires n <= |labels| && n <= |row| && j < n && j != i
    ensures Neighbour(j, labels[j], row[j]) in Candidates(labels, row, i, n)
    decreases n
  {
    if j < n - 1 {
      CandidatesComplete(labels, row, i, n - 1, j);
    }
  }

  /** `get_paragraph_proximities` once the embeddings are computed: `labels` are
      the paragraph table's keys and `embeddings` its values' vectors, in order. */
  method ParagraphProximities(labels: seq<string>, embeddings: seq<Vector>, k: nat)
    returns (m: Matrix, closest: seq<seq<Neighbour>>)
    requires |labels| == |embeddings| && Uniform(embeddings)
    ensures IsProximityMatrix(m, embeddings)
    ensures |closest| == |embeddings|
    ensures forall i :: 0 <= i < |embeddings| ==> closest[i] == Closest(k, labels, m[i], i)
  {
    var p := |embeddings|;
    m := [];
    closest := [];
    var i := 0;
    while i < p
      invariant 0 <= i <= p
      invariant RowsDone(labels, embeddings, k, m, closest, i)
    {
      var row, neighbours := ProximityRow(labels, embeddings, k, i);
      RowsDoneExtend(labels, embeddings, k, m, closest, i, row, neighbours);
      m := m + [row];
      closest := closest + [neighbours];
      i := i + 1;
    }
  }

  /** The outer loop's invariant: rows `[0, i)` and their neighbour lists are final. */
  predicate RowsDone(labels: seq<string>, es: seq<Vector>, k: nat, m: Matrix, closest: seq<seq<Neighbour>>, i: nat)
    requires |labels| == |es| && Uniform(es) && i <= |es|
  {
    MatrixRows(es, m, i) && |closest| == i &&
    (forall a :: 0 <= a < i ==> closest[a] == Closest(k, labels, m[a], a))
  }

  predicate MatrixRows(es: seq<Vector>, m: Matrix, i: nat)
    requires Uniform(es) && i <= |es|
  {
    |m| == i &&
    (forall a :: 0 <= a < i ==> |m[a]| == |es|) &&
    (forall a, b :: 0 <= a < i && 0 <= b < |es| ==> m[a][b] == Inner(es[a], es[b]))
  }

  lemma MatrixRowsExtend(es: seq<Vector>, m: Matrix, i: nat, row: seq<real>)
    requires Uniform(es) && i < |es| && MatrixRows(es, m, i)
    requires |row| == |es| && forall b :: 0 <= b < |es| ==> row[b] == Inner(es[i], es[b])
    ensures MatrixRows(es, m + [row], i + 1)
  {
    var m' := m + [row];
    forall a, b | 0 <= a <= i && 0 <= b < |es|
      ensures m'[a][b] == Inner(es[a], es[b])
    {
      if a < i {
        assert m'[a] == m[a];
      }
    }
  }

  lemma RowsDoneExtend(labels: seq<string>, es: seq<Vector>, k: nat, m: Matrix, closest: seq<seq<Neighbour>>, i: nat,
                       row: seq<real>, neighbours: seq<Neighbour>)
    requires |labels| == |es| && Uniform(es) && i < |es|
    requires RowsDone(labels, es, k, m, closest, i)
    requires |row| == |es| && forall b :: 0 <= b < |es| ==> row[b] == Inner(es[i], es[b])
    requires neighbours == Closest(k, labels, row, i)
    ensures RowsDone(labels, es, k, m + [row], closest + [neighbours], i + 1)
  {
    MatrixRowsExtend(es, m, i, row);
    var m', closest' := m + [row], closest + [neighbours];
    forall a | 0 <= a <= i
      ensures closest'[a] == Closest(k, labels, m'[a], a)
    {
      if a < i {
        assert m'[a] == m[a] && closest'[a] == closest[a];
      }
    }
  }

  /** One pass of the outer loop of `get_paragraph_proximities`: row `i` of the
      matrix and the neighbour list of paragraph `i`. */
  method ProximityRow(labels: seq<string>, embeddings: seq<Vector>, k: nat, i: nat)
    returns (row: seq<real>, neighbours: seq<Neighbour>)
    requires |labels| == |embeddings| && Uniform(embeddings) && i < |embeddings|
    ensures |row| == |embeddings|
    ensures forall b :: 0 <= b < |embeddings| ==> row[b] == Inner(embeddings[i], embeddings[b])
    ensures neighbours == Closest(k, labels, row, i)
  {
    var p := |embeddings|;
    row := [];
    var targetProximities: seq<Neighbour> := [];
    var j := 0;
    while j < p
      invariant 0 <= j <= p
      invariant InnerRow(embeddings, i, row, j)
      invariant targetProximities == Candidates(labels, row, i, j)
    {
      var proximity := Inner(embeddings[i], embeddings[j]);
      CandidatesStep(labels, row, proximity, i);
      InnerRowExtend(embeddings, i, row, j);
      row := row + [proximity];
      if i != j {
        targetProximities := targetProximities + [Neighbour(j, labels[j], proximity)];
      }
      j := j + 1;
    }
    neighbours := NLargest(k, targetProximities);
  }

  /** `row` holds the inner products of embedding `i` with embeddings `[0, n)`. */
  predicate InnerRow(embeddings: seq<Vector>, i: nat, row: seq<real>, n: nat)
    requires Uniform(embeddings) && i < |embeddings| && n <= |embeddings|
  {
    |row| == n && forall b :: 0 <= b < n ==> row[b] == Inner(embeddings[i], embeddings[b])
  }

  lemma InnerRowExtend(embeddings: seq<Vector>, i: nat, row: seq<real>, n: nat)
    requires Uniform(embeddings) && i < |embeddings| && n < |embeddings|
    requires InnerRow(embeddings, i, row, n)
    ensures InnerRow(embeddings, i, row + [Inner(embeddings[i], embeddings[n])], n + 1)
  {
  }

  /** One step of the inner loop: the candidates of the longer row are those of
      the shorter one, then the new column unless it is the row's own. */
  lemma CandidatesStep(labels: seq<string>, row: seq<real>, x: real, i: nat)
    requires |row| < |labels|
    ensures Candidates(labels, row + [x], i, |row| + 1) ==
      Candidates(labels, row, i, |row|) + (if |row| != i then [Neighbour(|row|, labels[|row|], x)] else [])
  {
    CandidatesExtend(labels, row, x, i, |row|);
    assert (row + [x])[|row|] == x;
  }

  /** Appending a column to the row does not change the candidates already listed. */
  lemma {:induction false} CandidatesExtend(labels: seq<string>, row: seq<real>, x: real, i: nat, n: nat)
    requires n <= |row| && n < |labels|
    ensures Candidates(labels, row + [x], i, n) == Candidates(labels, row, i, n)
    decreases n
  {
    if n > 0 {
      CandidatesExtend(labels, row, x, i, n - 1);
      assert (row + [x])[n - 1] == row[n - 1];
    }
  }
}
